=== FILE: README.md ===
# knowledge-base-mcp, modelled in Dafny

This project models the core of `knowledge-base-mcp`. That program is an MCP server that lets an assistant look things up in Dify knowledge bases. It offers two tools:

- `resolve-knowledge-ids` lists the knowledge bases the API key can see.
- `get-knowledge-docs` retrieves the passages most relevant to a query from chosen knowledge bases.

The model covers these parts of the program:

- **CacheManager** (`cache_manager.dfy`). A TTL cache with lazy expiry on `get`, plus `set`, `delete`, `clear` and the periodic `cleanup` sweep. The clock is an explicit `now` parameter, and the sweep is an explicit operation.
- **DifyRepository** (`dify_repository.dfy`, with `id_order.dfy` and `ranking.dfy`).
  - `retrieveDocuments` (`Retrieve`):
    - the empty-id check;
    - the cache key built from the sorted ids;
    - the cache lookup;
    - the fan-out to one upstream call per id, joined in id order;
    - the merge, with `tsne_position || null`;
    - the stable descending sort by score;
    - the `topK` truncation;
    - storing the result in the cache;
    - rethrowing errors.
  - `getKnowledgeIds`: the listing with an optional keyword, and the mapping to descriptors with their fallbacks.
- **DifyService** (`dify_service.dfy`). The registry that holds at most one repository. It is rebuilt only when the endpoint (base URL or API key) changes.
- **The two tool handlers** (`get_knowledge_docs.dfy`, `resolve_knowledge_ids.dfy`). Their argument checks, the options they pass, and the exact text they render.
- **ErrorHandler** (`error_handler.dfy`). The four error classifiers and `createToolError`.
- **The entry point's decisions** (`index.dfy`):
  - the client address taken from `X-Forwarded-For`;
  - the request routing;
  - the table of SSE sessions;
  - the bounded port retry;
  - the `--transport` and `--port` checks;
  - the per-request service initialisation with the `--dify-api-key` override.
- **Shared JavaScript behaviour** (`js_text.dfy`): `join`, `trim`, `split(',')[0]`, `slice(0, end)`, `String(n)` for integers and `parseInt(s, 10)`.

The model treats the program's inputs as follows:

- The upstream HTTP service is a function parameter:
  - `upstream(id, request)` stands for one retrieve call;
  - `list(queryParameters)` stands for the listing call.
- `Promise.all` is an ordered gather over those outcomes.
- State such as the cache, the registry and the session table is an immutable value. Each operation returns the new state.

## Model

| member | source | states |
|---|---|---|
| CacheManager.NewCache | src/utils/cache-manager.ts:10-11 | A new cache is empty and keeps the TTL it was given. |
| CacheManager.Set | src/utils/cache-manager.ts:22-29 | Stores data with timestamp `now` and expiry `now + ttl`. Adds exactly that key and leaves every other entry as it was. |
| CacheManager.SetDefault | src/utils/cache-manager.ts:22 | Omitting the ttl is the same as passing the cache's default TTL. |
| CacheManager.Get | src/utils/cache-manager.ts:36-49 | Returns the data exactly when the key is present and `now <= expiresAt`, and then leaves the cache unchanged. Otherwise it returns nothing and the key is gone afterwards. |
| CacheManager.Delete | src/utils/cache-manager.ts:56-58 | Reports whether the key was present. Removes exactly that key and keeps the other entries. |
| CacheManager.Clear | src/utils/cache-manager.ts:63-65 | Leaves no entry and keeps the TTL. |
| CacheManager.Cleanup | src/utils/cache-manager.ts:70-77 | Keeps exactly the entries that are still live at `now`, unchanged. |
| CacheManager.Sweep | src/utils/cache-manager.ts:70-77 | The key-by-key deletion loop ends in the same cache as `Cleanup`. |
| CacheManager.GetAfterSet | src/utils/cache-manager.ts:22-49 | Reading a key just written returns the data until its expiry, and nothing after. |
| CacheManager.SetLeavesOtherKeys | src/utils/cache-manager.ts:22-29 | Writing one key never changes what another key reads. |
| CacheManager.CleanupUnobservable | src/utils/cache-manager.ts:13 | A sweep at an earlier or equal time never changes what any later `get` returns. |
| CacheManager.CleanupIdempotent | src/utils/cache-manager.ts:70-77 | Sweeping twice at the same time is the same as sweeping once. |
| CacheManager.GetThenCleanup | src/utils/cache-manager.ts:44-46 | The lazy deletion in `get` only removes what the sweep would remove. |
| CacheManager.GetAfterDelete | src/utils/cache-manager.ts:36-58 | After `delete(key)` the key reads as absent, and every other key reads as it did before. |
| CacheManager.GetAfterClear | src/utils/cache-manager.ts:36-65 | After `clear()` every key reads as absent. |
| IdOrder.UnitRank | src/services/dify-repository.ts:76 | A character's place in UTF-16 code-unit order: characters outside the Basic Multilingual Plane sort after U+0000..U+D7FF and before U+E000..U+FFFF. |
| IdOrder.UnitRankIsCodeUnitOrder | src/services/dify-repository.ts:76 | One character ranks below another exactly when its UTF-16 code units (one unit, or a high and a low surrogate) sort strictly before the other's. |
| IdOrder.LexLeqIsCodeUnitOrder | src/services/dify-repository.ts:76 | The order on ids is JavaScript's string order: `a` comes no later than `b` exactly when the UTF-16 code units of `b` do not sort strictly before those of `a`. |
| IdOrder.SurrogatePairBeforeHighBmp | src/services/dify-repository.ts:76 | U+1F600 sorts before U+FF21, as its first code unit 0xD83D is smaller, though its scalar value is larger. |
| IdOrder.LexLeqTotal | src/services/dify-repository.ts:76 | The order `sort()` uses on ids is total. |
| IdOrder.LexLeqAntisymmetric | src/services/dify-repository.ts:76 | The order `sort()` uses on ids is antisymmetric. |
| IdOrder.LexLeqTransitive | src/services/dify-repository.ts:76 | The order `sort()` uses on ids is transitive. |
| IdOrder.SortIds | src/services/dify-repository.ts:76 | The sorted ids are ascending in UTF-16 code-unit order and are a permutation of the input. |
| IdOrder.AscendingUnique | src/services/dify-repository.ts:76 | Two ascending permutations of the same ids are equal. |
| IdOrder.SortIdsCanonical | src/services/dify-repository.ts:76 | Any two orderings of the same ids sort to the same sequence. |
| Ranking.SortByScore | src/services/dify-repository.ts:132 | The result is sorted by descending score and is a permutation of the input. Records with equal scores keep their relative order, because the sort is stable. |
| Ranking.StableSortUnique | src/services/dify-repository.ts:132 | At most one sequence is a descending, stable permutation of the input, so the sort's result is fully determined. |
| Ranking.HeadScoreIsMax | src/services/dify-repository.ts:132 | The head of a list sorted by descending score scores at least as high as the head of any list with the same records in the same order per score. |
| Ranking.Truncate | src/services/dify-repository.ts:135-137 | The result is a prefix of the input. Up to `topK` records are kept unchanged, more are cut to `topK`, and a negative `topK` drops that many records from the end. |
| Ranking.Rank | src/services/dify-repository.ts:132-137 | The merged records are sorted and are a sub-multiset of the input. The length is `min(n, topK)`, and a negative `topK` counts from the end. No dropped record outscores a kept one. Within each score, the kept records are a prefix of the input order. |
| DifyRepository.NewRepository | src/services/dify-repository.ts:20-31 | A repository keeps its config and starts with an empty cache that has the default TTL. |
| DifyRepository.KeySeparatesJoinedIds | src/services/dify-repository.ts:76-77 | With the query, `topK` and threshold fixed, two cache keys are equal exactly when the comma-joined ids are equal. |
| DifyRepository.KeyForDefaults | src/services/dify-repository.ts:68-77 | Omitted options are keyed as their defaults, `topK` 10 and threshold 0.7. |
| DifyRepository.KeyIgnoresIdOrder | src/services/dify-repository.ts:76-77 | Cache keys that differ only in the order of the ids are equal. |
| DifyRepository.KeyConflatesCommaIds | src/services/dify-repository.ts:76-77 | The id list `["a,b"]` and the list `["a", "b"]` produce the same cache key. |
| DifyRepository.FanOut | src/services/dify-repository.ts:96-101 | There is one upstream call per id, in the order of the ids, and each call sends the same request. |
| DifyRepository.Gather | src/services/dify-repository.ts:104 | The join succeeds exactly when every call succeeded, and its responses are in call order. A failure carries the error of one of the rejected calls. |
| DifyRepository.Normalize | src/services/dify-repository.ts:117-123 | Segment and score are copied. A missing `tsne_position` becomes null and any other value is kept. |
| DifyRepository.ConcatAppend | src/services/dify-repository.ts:113-129 | Merging the responses concatenates their records in response order. |
| DifyRepository.NormalizeAll | src/services/dify-repository.ts:117-123 | One normalized record per record, in order. |
| DifyRepository.RecordsOf | src/services/dify-repository.ts:115-123 | A response without `records` contributes nothing. Otherwise it contributes one normalized record per record, in order. |
| DifyRepository.Concat | src/services/dify-repository.ts:113-129 | Every response's records are among the merged ones. No merged record has a missing `tsne_position`. |
| DifyRepository.ConcatPair | src/services/dify-repository.ts:113-129 | Two responses merge to the records of the first followed by those of the second. |
| DifyRepository.Merge | src/services/dify-repository.ts:107-137 | The merged response carries the query, and its records are the ranked concatenation: sorted best first, at most `topK` of them for a non-negative `topK`, all taken from the answers. |
| DifyRepository.Rethrow | src/services/dify-repository.ts:145-151 | An error with a non-zero status is rethrown unchanged. Any other error becomes exactly what `handleApiError` makes of it: an `API_ERROR` tool error that keeps the original message and stack, or the original value. |
| DifyRepository.Retrieve | src/services/dify-repository.ts:60-153 | With no ids it throws "至少需要提供一个知识库ID" and leaves the repository unchanged. A live cache hit returns the stored response and changes nothing. With `useCache` false the cache is never touched. The cache is read when the call starts and written when the upstream calls have settled. |
| DifyRepository.RetrieveOnMiss | src/services/dify-repository.ts:87-152 | On a miss, the result succeeds exactly when every upstream call succeeds. Its value is the merge of the calls over the sorted ids, and a failure is a rethrown error of one of the calls. |
| DifyRepository.RetrieveFailureStoresNothing | src/services/dify-repository.ts:139-152 | A failed retrieval stores nothing new in the cache. |
| DifyRepository.RetrieveSuccessCached | src/services/dify-repository.ts:139-142 | When the key is live or every upstream call succeeds, a call that uses the cache succeeds. Afterwards the key holds the returned response, live at the time of the lookup. |
| DifyRepository.RetrieveMissStores | src/services/dify-repository.ts:139-142 | On a miss where every upstream call succeeds, the response is stored under the key, stamped with the time the upstream calls settled and expiring one default TTL later. Every other key is left as it was. |
| DifyRepository.RetrieveIgnoresIdOrder | src/services/dify-repository.ts:76-101 | Retrieval depends on the ids only as a multiset. |
| DifyRepository.RepeatServedFromCache | src/services/dify-repository.ts:76-85 | A query that missed and whose upstream calls all succeeded is answered the same way when repeated within the TTL counted from when it was stored. This holds even with the ids permuted and whatever the upstream would now answer, and the repository is left unchanged. |
| DifyRepository.MergeExample | src/services/dify-repository.ts:113-137 | Responses [0.9, 0.3] and [0.8] with `topK` 2 give the records scored 0.9 and 0.8, in that order. |
| DifyRepository.ToKnowledgeName | src/services/dify-repository.ts:179-185 | Id and name are copied. A falsy description becomes `name + "的详细说明"`. Missing counts become 0. |
| DifyRepository.ToKnowledgeNames | src/services/dify-repository.ts:179 | One descriptor per dataset, in listing order. |
| DifyRepository.ListingQuery | src/services/dify-repository.ts:161-166 | A `keyword` query parameter is added exactly when the keyword is truthy. |
| DifyRepository.GetKnowledgeIds | src/services/dify-repository.ts:158-191 | A listing failure propagates unchanged. A body without `data` yields undefined. Otherwise the result holds the mapped descriptors in order. |
| DifyService.Init | src/services/dify-service.ts:31-38 | Afterwards a repository exists for the given endpoint. An existing repository for the same base URL and key is kept, with its cache. Otherwise a new repository with an empty cache replaces it. |
| DifyService.GetRepository | src/services/dify-service.ts:44-49 | Returns the repository if one exists, and otherwise throws "DifyRepository尚未初始化，请先调用init()方法". |
| DifyService.InitIdempotent | src/services/dify-service.ts:33-37 | Initialising twice with the same config is the same as initialising once. |
| DifyService.InitThenGet | src/services/dify-service.ts:31-49 | After `init`, `getRepository` succeeds and serves the given endpoint. |
| DifyService.GetBeforeInit | src/services/dify-service.ts:13-49 | Before any `init`, asking for the repository throws "DifyRepository尚未初始化，请先调用init()方法". |
| DifyService.NewKeyMissesCache | src/services/dify-service.ts:33-36 | After a key change, a retrieval whose upstream calls all succeed returns the fresh merge, whatever the old repository had cached. |
| GetKnowledgeDocs.DocsOptions | src/tools/get-knowledge-docs.ts:31-34 | The handler asks for `topK` 10 and uses the repository's defaults for the threshold (0.7) and the cache (on). |
| GetKnowledgeDocs.Entries | src/tools/get-knowledge-docs.ts:48-50 | Each passage becomes its content followed by a blank line and a rule, in ranking order. |
| GetKnowledgeDocs.DocsTextSnoc | src/tools/get-knowledge-docs.ts:48-50 | Adding a passage appends a gap, its content and the rule, and leaves the earlier text unchanged. |
| GetKnowledgeDocs.DocsText | src/tools/get-knowledge-docs.ts:48-50 | The text opens with the best passage's content and ends with the last passage's content and its rule. No passages give the empty text. |
| GetKnowledgeDocs.Render | src/tools/get-knowledge-docs.ts:36-50 | The not-found guidance is shown exactly when there are no passages. Otherwise the text ends with the rule. |
| GetKnowledgeDocs.Handle | src/tools/get-knowledge-docs.ts:20-60 | Missing or empty ids throw "需要提供至少一个知识库ID" before the registry is consulted. An uninitialised registry throws. Retrieval errors propagate. A success is exactly one text item: the not-found guidance for zero passages, and the joined passages otherwise. |
| GetKnowledgeDocs.HandleShowsAtMostTen | src/tools/get-knowledge-docs.ts:31-50 | With an empty cache and every dataset answering, the call succeeds and renders the merge of the answers, which holds at most ten passages. The not-found guidance is shown exactly when the merge is empty. |
| ResolveKnowledgeIds.Blocks | src/tools/resolve-knowledge-ids.ts:74-78 | There is one five-line block per descriptor, in order. |
| ResolveKnowledgeIds.RenderMatches | src/tools/resolve-knowledge-ids.ts:63-82 | The header, then each block with a rule after every block except the last. This equals the header followed by the blocks joined by rules. |
| ResolveKnowledgeIds.AppendBlocks | src/tools/resolve-knowledge-ids.ts:73-82 | Appending each block, with a rule after every block except the last, adds the blocks joined by rules. |
| ResolveKnowledgeIds.BlockShape | src/tools/resolve-knowledge-ids.ts:74-78 | A block opens with the title line and closes with the word-count line. |
| ResolveKnowledgeIds.ResolveText | src/tools/resolve-knowledge-ids.ts:63-82 | The reply starts with the header. With no descriptors it is the header alone, and otherwise it ends with the last descriptor's block. |
| ResolveKnowledgeIds.Handle | src/tools/resolve-knowledge-ids.ts:39-91 | An uninitialised registry throws, and listing failures propagate. A listing without `data` throws a TypeError. Otherwise the reply is one text item over the first `limit` descriptors (10 by default, JavaScript `slice` semantics, a fractional limit truncated toward zero). |
| ResolveKnowledgeIds.QueryIgnored | src/tools/resolve-knowledge-ids.ts:40-46 | The reply does not depend on the query. |
| ResolveKnowledgeIds.ShowsFirstLimit | src/tools/resolve-knowledge-ids.ts:46-60 | With a non-negative limit the reply shows the first `min(floor(limit), n)` descriptors, unchanged and in listing order. |
| ResolveKnowledgeIds.FractionalLimitTruncates | src/tools/resolve-knowledge-ids.ts:40-60 | A limit of 2.5 shows as much as 2, and -0.5 as much as 0. |
| ErrorHandler.CreateToolError | src/utils/error-handler.ts:10-16 | The tool error carries exactly the code, message and details it was given. |
| ErrorHandler.HandleResolveError | src/utils/error-handler.ts:21-35 | `RESOLUTION_FAILED`. For an Error, the message is prefixed and the stack is kept. Otherwise it is the fixed unknown message, with the original value in the details. |
| ErrorHandler.HandleDocumentError | src/utils/error-handler.ts:40-54 | `DOCUMENT_RETRIEVAL_FAILED`. The message carries ` (docName)` exactly when the name is truthy. The details carry the stack or the original value, together with the name. |
| ErrorHandler.HandleApiError | src/utils/error-handler.ts:59-73 | `API_ERROR`. For an Error, the message is prefixed and the stack is kept. Otherwise it is the fixed unknown message, with the original value in the details. |
| ErrorHandler.HandleValidationError | src/utils/error-handler.ts:78-92 | `VALIDATION_ERROR`. For an Error, the message is prefixed and the stack is kept. Otherwise it is the fixed unknown message, with the original value in the details. |
| ErrorHandler.ApiErrorRecoversCause | src/utils/error-handler.ts:59-73 | The original error message, or the original value, can be recovered from the API error. |
| ErrorHandler.DocumentNoteOnlyWhenNamed | src/utils/error-handler.ts:40-54 | A falsy document name leaves the message as if no name had been given. A truthy name is inserted before the colon. |
| JsText.JoinSnoc | src/tools/get-knowledge-docs.ts:50 | Joining one more part appends the separator and the part. |
| JsText.Join | src/tools/get-knowledge-docs.ts:48-50 | No parts give the empty text. Otherwise the text starts with the first part and ends with the last. |
| JsText.JoinPair | src/tools/get-knowledge-docs.ts:50 | Two parts are joined by exactly one separator. |
| JsText.Trim | src/index.ts:28 | The result is a contiguous piece of the input that has only whitespace around it and no whitespace at either end. |
| JsText.BeforeFirstComma | src/index.ts:28 | The result is the longest prefix of the input that contains no comma. |
| JsText.SliceTo | src/tools/resolve-knowledge-ids.ts:60 | `slice(0, end)` keeps a prefix of the input. A negative end counts back from the end of the input. |
| JsText.ParseIntText | src/index.ts:65 | `parseInt` reads back every integer written in decimal. |
| JsText.IntText | src/tools/resolve-knowledge-ids.ts:77-78 | The text is non-empty, and starts with a minus sign exactly when the number is negative. |
| JsText.ParseIntBlank | src/index.ts:65 | Blank text parses to NaN. |
| JsText.ParseIntLeadingDigit | src/index.ts:65 | Text starting with a digit parses to a non-negative number. |
| JsText.ParseIntNegative | src/index.ts:65 | A negative result needs a minus sign right after the leading whitespace. |
| JsText.ParseIntDigitsPrefix | src/index.ts:65 | Leading whitespace, then an optional `+` or `-`, then digits, then text not starting with a digit, parses to the digits' value, negated after `-`. |
| JsText.ParseIntNoDigits | src/index.ts:65 | Without a digit after the leading whitespace and an optional sign, the result is NaN. |
| JsText.ToInteger | src/tools/resolve-knowledge-ids.ts:60 | A fractional `slice` end is truncated toward zero: the result is within one of the number, on the same side of zero. |
| Index.FirstHop | src/index.ts:27-28 | The first element of the comma-separated value, trimmed. It contains no comma. |
| Index.ClientIp | src/index.ts:22-33 | A truthy header yields its first hop, and for an array header that of the array's first element. An absent or empty header yields the remote address. An empty array throws. |
| Index.ClientIpTakesFirstHop | src/index.ts:27-28 | For `client, proxy...` the result is the trimmed client address. |
| Index.RouteOf | src/index.ts:94-149 | OPTIONS comes before any path check. `/mcp` accepts any method, `/sse` only GET, `/messages` only POST, and `/ping` any method. Everything else is unrouted. |
| Index.WrongMethodIsUnrouted | src/index.ts:106-149 | `/sse` with a method other than GET, and `/messages` with a method other than POST, get a 404. |
| Index.OpenSession | src/index.ts:114-116 | Opening a stream adds its own id, and that id maps to its channel. Other ids are unchanged. |
| Index.CloseSession | src/index.ts:118-120 | Closing a stream removes exactly its id. |
| Index.ReplayHoldsOpenSessions | src/index.ts:116-134 | After any history of opens and closes, an id is in the table exactly when it was opened and not closed since. |
| Index.PostMessage | src/index.ts:122-142 | A missing or empty `sessionId` gets a 400 without a lookup. An unknown id gets a 400 that names the id. An open id is handed to its channel. |
| Index.HandleRequest | src/index.ts:87-156 | OPTIONS gets 200 and changes nothing. Every other request with a usable header initialises the service with the effective config. Any request to `/mcp` other than OPTIONS is handed to the streamable transport. Only `GET /sse` changes the session table, by adding the new stream. A post to a session is answered as the plain-object lookup answers it (`PostMessageAsWritten`), which agrees with `PostMessage` except on inherited names. Pings and unrouted paths get the answers listed above. A header that throws gets a 500. |
| Index.HandleRequestPrototypeName | src/index.ts:122-155 | Through the whole request handler, `POST /messages?sessionId=constructor` with no such session gets a 500, not the 400 `PostMessage` gives. |
| Index.EffectiveConfig | src/server.ts:26-30 | The base URL from the configuration, together with the CLI API key when it is truthy and the configured key otherwise. |
| Index.OpenPostClose | src/index.ts:112-142 | A stream opened by `GET /sse` receives the POSTs naming its session. After it closes, those POSTs get a 400. |
| Index.Attempts | src/index.ts:160-175 | The first port tried is the starting port. A failure exits with status 1, and a success listens on a port of the window. |
| Index.AttemptsShape | src/index.ts:160-175 | The ports tried are consecutive from the initial port, number at most `maxAttempts + 1`, and all but the last were in use. The outcome is decided by the last port tried. |
| Index.StartServer | src/index.ts:160-178 | The retry loop tries exactly the ports of the reference, all within `[initialPort, initialPort + 10]`. Any exit has status 1. |
| Index.SelectTransport | src/index.ts:54-61 | Only `stdio`, `http` and `sse` are accepted. Anything else exits with status 1. The chosen transport is the one named. |
| Index.ConfiguredTransportUnused | src/index.ts:61 | The environment's transport setting never changes the outcome. |
| Index.ChoosePort | src/index.ts:64-68 | A `--port` that parses to a non-zero integer is used. Otherwise the configured port is used. |
| Index.ChoosePortOfText | src/index.ts:64-68 | A decimal port is used as written, except 0, which falls back to the configured port. |
| Index.DefaultPortIgnoresConfigured | src/index.ts:42-68 | Without `--port` the port is 3000, because the option's default text is "3000". |
| Index.ChoosePortLeadingNumber | src/index.ts:65-67 | A `--port` value of whitespace, an optional sign, digits and then other text is used as the signed digits' value when that is non-zero, so ` 8080`, `+8080` and `8080abc` give 8080 and `-5` gives -5. A zero value falls back to the configured port. |
| Index.ChoosePortNotANumber | src/index.ts:65-67 | A `--port` value with no digit after its leading whitespace and optional sign, such as `''` or `abc`, falls back to the configured port. |
| Index.LookupAsWritten | src/index.ts:134 | Looking up an id in a plain object finds the object's own keys and also every name inherited from `Object.prototype`. |
| Index.PostMessageAsWritten | src/index.ts:134-155 | As written, a post naming an inherited property gets a 500. A post naming anything else behaves like `PostMessage`. |
| Index.PrototypeNameAnswers500 | src/index.ts:134-142 | `sessionId=constructor` gets 500 as written, where `PostMessage` gives the intended 400. |

## Left out

- HTTP itself:
  - the axios client, its interceptor and the Dify request and response formats on the wire;
  - express and cors;
  - the MCP SDK transports and `createServer` request/response I/O.
  The upstream is a parameter of the model. What a request is handed to is named by `Index.Outcome`.
- Unmodelled runtime inputs:
  - Timers and `Date.now()` are explicit times and an explicit `Cleanup`. A retrieval takes two times: `now`, when it reads the cache, and `done`, when the upstream calls have settled and the result is stored. The sweep's five-minute period is not modelled.
  - The SSE transport's random session id is a parameter (`freshId`).
  - The per-port outcome of `listen` is a parameter.
- The `getInstance` singletons are left out. The registry and the server state are values passed explicitly.
- How JavaScript converts a number to text for the threshold in the cache key is left out. It is the parameter `formatNumber`. `topK` is written in decimal.
- Floating-point scores are modelled as reals, so NaN is left out. The comparator `b.score - a.score` is therefore a total order.
- Malformed upstream bodies are left out:
  - a `records` that is not an array;
  - a `tsne_position` that is falsy but not undefined (such as `0`), which `|| null` would also turn into null;
  - non-numeric counts.
- Stack traces are supplied by the runtime. Errors raised inside the model carry no stack.
- DifyRepository.Gather: when several upstream calls fail, `Promise.all` reports whichever rejects first in time. The contract only promises the error of one of the failing calls, and the model picks the first in id order.
- DifyRepository.Retrieve: `datasetIds.sort()` also reorders the caller's array in place. The model does not return the caller's array.
- DifyRepository.Retrieve: `topK` is an integer in the model. The only caller passes 10, so a fractional, NaN or infinite `topK` is not modelled.
- DifyRepository.Retrieve: requests are processed one at a time. In the program, other requests can run while the upstream calls are pending: they can store other keys, or miss on the same key and overwrite its entry (the last `set` wins). The model builds the new state from the state at `now`, so concurrent cache writes during the await are not modelled.
- DifyRepository.Retrieve: the periodic sweep may run while the upstream calls are pending. The model reads the cache at `now` and writes it at `done` with no sweep in between; `Cleanup` can be applied to either state.
- The `_meta` field of the docs reply, and the tool titles, descriptions and input schemas, are left out.
- Logging (`console.log`/`warn`/`error`) is left out. The `res.headersSent` check is left out because no modelled route writes headers before it can throw.
- The following are not part of this model:
  - URL and pathname parsing, and query-parameter decoding;
  - commander's option parsing, beyond its defaults `stdio` and `"3000"`;
  - dotenv and the environment defaults in `src/config.ts`.
- `cacheConfig` is never passed to `CacheManager`, which always uses its own defaults. So it is not modelled.
- ResolveKnowledgeIds.Handle: the handler copies each descriptor into a `KnowledgeMatch` with the same fields. The model uses the descriptor itself.
- ResolveKnowledgeIds.Handle: `limit` is a real number, so NaN and the infinities are not modelled. A fractional limit is truncated toward zero, as `slice` does.
- DifyRepository.RetrieveSuccessCached: assumes a non-negative default TTL. A negative TTL would store an already-expired entry.

## Findings

| source | as written | input that shows it | evidently intended | confidence | as-written member | corrected member |
|---|---|---|---|---|---|---|
| src/index.ts:134-142 | The SSE session table is a plain object, so looking up an id also finds names inherited from `Object.prototype`. The inherited value is truthy, `handlePostMessage` is undefined on it, and the call throws, so the request is answered 500. `Index.HandleRequest` models the handler as written; it agrees with `Index.PostMessage` on every id except those names. | `POST /messages?sessionId=constructor` while no such session is open | A 400 "未找到sessionId的传输: constructor" that leaves the table unchanged, as for any other unknown id | medium, not executed | Index.PostMessageAsWritten | Index.PostMessage |

=== FILE: cache_manager.dfy ===
/** The in-memory TTL cache (src/utils/cache-manager.ts): a key -> entry map
    whose entries remember when they were stored and when they expire.
    Expiry is lazy on `Get` and eager in the `Cleanup` sweep; the clock is
    the explicit parameter `now` (milliseconds). */
module CacheManager {
  import opened Wrappers

  /** Default time-to-live: one hour. */
  const DefaultTTL: int := 3600000

  datatype CacheItem<T> = CacheItem(data: T, timestamp: int, expiresAt: int)

  datatype Cache<T> = Cache(entries: map<string, CacheItem<T>>, defaultTTL: int)

  /** An entry may still be served at `now`; it is live up to and including
      its expiry instant. */
  predicate IsLive<T>(item: CacheItem<T>, now: int)
  {
    now <= item.expiresAt
  }

  /** `new CacheManager(ttl)`: an empty cache. */
  function NewCache<T>(ttl: int): (c: Cache<T>)
    ensures c.entries == map[] && c.defaultTTL == ttl
  {
    Cache(map[], ttl)
  }

  /** `set(key, data, ttl)`: stores `data` stamped `now`, expiring at
      `now + ttl`, replacing any entry for `key`; other keys are untouched. */
  function Set<T>(c: Cache<T>, key: string, data: T, now: int, ttl: int): (r: Cache<T>)
    ensures r.defaultTTL == c.defaultTTL
    ensures key in r.entries && r.entries[key] == CacheItem(data, now, now + ttl)
    ensures r.entries.Keys == c.entries.Keys + {key}
    ensures forall k :: k in c.entries && k != key ==> r.entries[k] == c.entries[k]
  {
    c.(entries := c.entries[key := CacheItem(data, now, now + ttl)])
  }

  /** `set(key, data)` with the cache's default time-to-live. */
  function SetDefault<T>(c: Cache<T>, key: string, data: T, now: int): (r: Cache<T>)
    ensures r == Set(c, key, data, now, c.defaultTTL)
  {
    Set(c, key, data, now, c.defaultTTL)
  }

  /** `get(key)`: the stored data exactly when the entry exists and is live;
      otherwise nothing, and a stale entry for `key` is dropped on the way. */
  function Get<T>(c: Cache<T>, key: string, now: int): (r: (Option<T>, Cache<T>))
    ensures r.0.Some? <==> key in c.entries && IsLive(c.entries[key], now)
    ensures r.0.Some? ==> r.0.value == c.entries[key].data && r.1 == c
    ensures r.0.None? ==> r.1 == c.(entries := c.entries - {key})
  {
    if key !in c.entries then (None, c)
    else if now > c.entries[key].expiresAt then (None, c.(entries := c.entries - {key}))
    else (Some(c.entries[key].data), c)
  }

  /** `delete(key)`: whether `key` was present; afterwards it is not. */
  function Delete<T>(c: Cache<T>, key: string): (r: (bool, Cache<T>))
    ensures r.0 <==> key in c.entries
    ensures r.1.entries.Keys == c.entries.Keys - {key}
    ensures forall k :: k in r.1.entries ==> r.1.entries[k] == c.entries[k]
    ensures r.1.defaultTTL == c.defaultTTL
  {
    (key in c.entries, c.(entries := c.entries - {key}))
  }

  /** `clear()`: no entries are left. */
  function Clear<T>(c: Cache<T>): (r: Cache<T>)
    ensures |r.entries| == 0 && r.defaultTTL == c.defaultTTL
  {
    c.(entries := map[])
  }

  /** After `delete(key)` the key reads as absent, and every other key reads
      as it did before. */
  lemma GetAfterDelete<T>(c: Cache<T>, key: string, other: string, now: int)
    ensures Get(Delete(c, key).1, key, now).0.None?
    ensures other != key ==> Get(Delete(c, key).1, other, now).0 == Get(c, other, now).0
  {
  }

  /** After `clear()` every key reads as absent. */
  lemma GetAfterClear<T>(c: Cache<T>, key: string, now: int)
    ensures Get(Clear(c), key, now).0.None?
  {
  }

  /** `cleanup()`: drops exactly the entries that are stale at `now` and
      keeps every live entry as it was. */
  function Cleanup<T>(c: Cache<T>, now: int): (r: Cache<T>)
    ensures r.defaultTTL == c.defaultTTL
    ensures forall k :: k in r.entries <==> k in c.entries && IsLive(c.entries[k], now)
    ensures forall k :: k in r.entries ==> r.entries[k] == c.entries[k]
  {
    c.(entries := map k | k in c.entries && IsLive(c.entries[k], now) :: c.entries[k])
  }

  /** The sweep as the source runs it: one pass over the entries, deleting
      each stale one as it is met. It agrees with `Cleanup`. */
  method Sweep<T>(c: Cache<T>, now: int) returns (r: Cache<T>)
    ensures r == Cleanup(c, now)
  {
    r := c;
    var pending := c.entries.Keys;
    while pending != {}
      invariant pending <= c.entries.Keys
      invariant r.defaultTTL == c.defaultTTL
      invariant forall k :: k in r.entries <==> k in c.entries && (k in pending || IsLive(c.entries[k], now))
      invariant forall k :: k in r.entries ==> r.entries[k] == c.entries[k]
      decreases pending
    {
      var k :| k in pending;
      if now > c.entries[k].expiresAt {
        r := r.(entries := r.entries - {k});
      }
      pending := pending - {k};
    }
  }

  /** A stored value is served for its whole lifetime and not a moment longer. */
  lemma GetAfterSet<T>(c: Cache<T>, key: string, data: T, t: int, ttl: int, now: int)
    ensures Get(Set(c, key, data, t, ttl), key, now).0 == (if now <= t + ttl then Some(data) else None)
  {
  }

  /** Storing under one key never changes what another key yields. */
  lemma SetLeavesOtherKeys<T>(c: Cache<T>, key: string, data: T, t: int, ttl: int, other: string, now: int)
    requires other != key
    ensures Get(Set(c, key, data, t, ttl), other, now).0 == Get(c, other, now).0
  {
  }

  /** The sweep is invisible to readers: after sweeping at `t`, every read at
      `t` or later answers exactly as it would have without the sweep. */
  lemma CleanupUnobservable<T>(c: Cache<T>, t: int, key: string, now: int)
    requires t <= now
    ensures Get(Cleanup(c, t), key, now).0 == Get(c, key, now).0
  {
  }

  /** Sweeping twice at the same instant is sweeping once. */
  lemma CleanupIdempotent<T>(c: Cache<T>, now: int)
    ensures Cleanup(Cleanup(c, now), now) == Cleanup(c, now)
  {
  }

  /** A lazy expiry on `Get` removes only what the sweep would remove. */
  lemma GetThenCleanup<T>(c: Cache<T>, key: string, now: int)
    ensures Cleanup(Get(c, key, now).1, now) == Cleanup(c, now)
  {
  }
}

=== FILE: dify_repository.dfy ===
/** The retrieval repository (src/services/dify-repository.ts): one query fanned
    out to several knowledge bases, the answers joined in dataset order,
    re-ranked by score, truncated to `topK`, and cached under a key built from
    the query parameters and the sorted dataset ids.

    The HTTP client is a parameter: `upstream(datasetId, request)` is what the
    retrieval endpoint answers for one dataset, and `list(params)` what the
    listing endpoint answers for one query string. `Promise.all` becomes an
    order-preserving gather over the sorted ids. */
module DifyRepository {
  import opened Wrappers
  import opened Types
  import JsText
  import IdOrder
  import Ranking
  import CacheManager
  import ErrorHandler

  /** A configured client together with the cache it owns. */
  datatype Repository = Repository(config: Config, cache: CacheManager.Cache<RetrieveResponse>)

  /** `new DifyRepository(config)`: the given settings and a fresh, empty
      cache with the default one-hour lifetime. */
  function NewRepository(config: Config): (r: Repository)
    ensures r.config == config
    ensures r.cache.entries == map[] && r.cache.defaultTTL == CacheManager.DefaultTTL
  {
    Repository(config, CacheManager.NewCache(CacheManager.DefaultTTL))
  }

  const DefaultTopK: int := 10
  const DefaultThreshold: real := 0.7
  const NoDatasetMessage := "至少需要提供一个知识库ID"

  /** The options argument of `retrieveDocuments`; `None` is an omitted field. */
  datatype RetrieveOptions = RetrieveOptions(
    topK: Option<int>, threshold: Option<real>, useCache: Option<bool>, datasetIds: seq<string>)

  function TopK(o: RetrieveOptions): int { o.topK.GetOr(DefaultTopK) }
  function Threshold(o: RetrieveOptions): real { o.threshold.GetOr(DefaultThreshold) }
  function UseCache(o: RetrieveOptions): bool { o.useCache.GetOr(true) }

  /** The body sent to every dataset's retrieve endpoint. */
  datatype RetrieveRequest = RetrieveRequest(query: string, topK: int, scoreThreshold: real)

  /** One dataset's answer: `records` may be missing from the body. */
  datatype RawResponse = RawResponse(records: Option<seq<RetrievedRecord>>)

  /** A settled fan-out branch. */
  datatype Fetch = Fetched(response: RawResponse) | Rejected(error: Thrown)

  // ---------------------------------------------------------------------------
  // cache key

  /** `retrieve:${query}:${topK}:${threshold}:${ids.join(',')}`; how a
      threshold is written as text is the parameter `formatNumber`. */
  function CacheKey(query: string, topK: int, threshold: real, sortedIds: seq<string>,
                    formatNumber: real -> string): string
  {
    "retrieve:" + query + ":" + JsText.IntText(topK) + ":" + formatNumber(threshold) + ":"
      + JsText.Join(sortedIds, ",")
  }

  /** The key a call with these options is cached under. */
  function KeyFor(query: string, o: RetrieveOptions, formatNumber: real -> string): string
  {
    CacheKey(query, TopK(o), Threshold(o), IdOrder.SortIds(o.datasetIds), formatNumber)
  }

  /** With the query, `topK` and threshold fixed, two keys are equal exactly
      when the comma-joined ids are: the id part is all that tells them apart. */
  lemma KeySeparatesJoinedIds(query: string, topK: int, threshold: real, a: seq<string>, b: seq<string>,
                              formatNumber: real -> string)
    ensures (CacheKey(query, topK, threshold, a, formatNumber) == CacheKey(query, topK, threshold, b, formatNumber))
              <==> (JsText.Join(a, ",") == JsText.Join(b, ","))
  {
    var head := "retrieve:" + query + ":" + JsText.IntText(topK) + ":" + formatNumber(threshold) + ":";
    assert CacheKey(query, topK, threshold, a, formatNumber) == head + JsText.Join(a, ",");
    assert CacheKey(query, topK, threshold, b, formatNumber) == head + JsText.Join(b, ",");
    assert (head + JsText.Join(a, ","))[|head|..] == JsText.Join(a, ",");
    assert (head + JsText.Join(b, ","))[|head|..] == JsText.Join(b, ",");
  }

  /** Omitted options are keyed as their defaults: `topK` 10 and threshold 0.7. */
  lemma KeyForDefaults(query: string, ids: seq<string>, formatNumber: real -> string)
    ensures KeyFor(query, RetrieveOptions(None, None, None, ids), formatNumber)
              == KeyFor(query, RetrieveOptions(Some(10), Some(0.7), Some(true), ids), formatNumber)
  {
  }

  /** Listing the same datasets in another order gives the same key. */
  lemma KeyIgnoresIdOrder(query: string, o1: RetrieveOptions, o2: RetrieveOptions, formatNumber: real -> string)
    requires o1.topK == o2.topK && o1.threshold == o2.threshold
    requires multiset(o1.datasetIds) == multiset(o2.datasetIds)
    ensures KeyFor(query, o1, formatNumber) == KeyFor(query, o2, formatNumber)
  {
    IdOrder.SortIdsCanonical(o1.datasetIds, o2.datasetIds);
  }

  /** The key does not tell an id containing a comma from two ids: the lists
      `["a,b"]` and `["a", "b"]` share one cache entry. */
  lemma KeyConflatesCommaIds(query: string, formatNumber: real -> string)
    ensures var o1 := RetrieveOptions(None, None, None, ["a,b"]);
            var o2 := RetrieveOptions(None, None, None, ["a", "b"]);
            multiset(o1.datasetIds) != multiset(o2.datasetIds)
            && KeyFor(query, o1, formatNumber) == KeyFor(query, o2, formatNumber)
  {
    var ids := ["a", "b"];
    var o1 := RetrieveOptions(None, None, None, ["a,b"]);
    var o2 := RetrieveOptions(None, None, None, ids);
    SortedExample();
    assert "a,b" !in multiset(ids);
    assert KeyFor(query, o1, formatNumber) == CacheKey(query, DefaultTopK, DefaultThreshold, ["a,b"], formatNumber);
    assert KeyFor(query, o2, formatNumber) == CacheKey(query, DefaultTopK, DefaultThreshold, ids, formatNumber);
    JoinExample();
    KeySeparatesJoinedIds(query, DefaultTopK, DefaultThreshold, ["a,b"], ids, formatNumber);
  }

  lemma JoinExample()
    ensures JsText.Join(["a", "b"], ",") == JsText.Join(["a,b"], ",")
  {
    JsText.JoinPair("a", "b", ",");
  }

  lemma SortedExample()
    ensures IdOrder.SortIds(["a,b"]) == ["a,b"]
    ensures IdOrder.SortIds(["a", "b"]) == ["a", "b"]
  {
    var ids := ["a", "b"];
    assert IdOrder.SortIds(["a,b"]) == ["a,b"];
    assert IdOrder.LexLeq("a", "b");
    assert IdOrder.SortIds(ids[1..]) == ["b"];
  }

  // ---------------------------------------------------------------------------
  // fan-out, join and merge

  /** One request per dataset, in the given order. */
  function FanOut(ids: seq<string>, request: RetrieveRequest,
                  upstream: (string, RetrieveRequest) -> Fetch): (fs: seq<Fetch>)
    ensures |fs| == |ids|
    ensures forall i :: 0 <= i < |ids| ==> fs[i] == upstream(ids[i], request)
  {
    if |ids| == 0 then [] else [upstream(ids[0], request)] + FanOut(ids[1..], request, upstream)
  }

  /** `Promise.all`: every answer in order when all branches succeed, else a
      failure of one of the branches (here the first in order; the real
      join reports whichever rejects first in time). */
  function Gather(fs: seq<Fetch>): (r: Result<seq<RawResponse>, Thrown>)
    ensures r.Ok? <==> forall i :: 0 <= i < |fs| ==> fs[i].Fetched?
    ensures r.Ok? ==> |r.value| == |fs| && forall i :: 0 <= i < |fs| ==> r.value[i] == fs[i].response
    ensures r.Err? ==> exists i :: 0 <= i < |fs| && fs[i] == Rejected(r.error)
  {
    if |fs| == 0 then Ok([])
    else match fs[0]
      case Rejected(e) => Err(e)
      case Fetched(resp) =>
        match Gather(fs[1..])
        case Err(e) =>
          assert exists i :: 0 <= i < |fs[1..]| && fs[1..][i] == Rejected(e);
          var i :| 0 <= i < |fs[1..]| && fs[1..][i] == Rejected(e);
          assert fs[i + 1] == Rejected(e);
          Err(e)
        case Ok(rest) =>
          assert forall i :: 0 < i < |fs| ==> fs[i] == fs[1..][i - 1];
          Ok([resp] + rest)
  }

  /** `{segment, score, tsne_position: tsne_position || null}`. */
  function Normalize(rec: RetrievedRecord): (n: RetrievedRecord)
    ensures n.segment == rec.segment && n.score == rec.score
    ensures n.tsnePosition != Undefined
    ensures rec.tsnePosition != Undefined ==> n.tsnePosition == rec.tsnePosition
  {
    if rec.tsnePosition == Undefined then rec.(tsnePosition := Null) else rec
  }

  function NormalizeAll(rs: seq<RetrievedRecord>): (ns: seq<RetrievedRecord>)
    ensures |ns| == |rs|
    ensures forall i :: 0 <= i < |rs| ==> ns[i] == Normalize(rs[i])
  {
    if |rs| == 0 then [] else [Normalize(rs[0])] + NormalizeAll(rs[1..])
  }

  /** The records of one answer; an answer without `records` adds nothing. */
  function RecordsOf(resp: RawResponse): (rs: seq<RetrievedRecord>)
    ensures resp.records.None? ==> rs == []
    ensures resp.records.Some? ==>
              |rs| == |resp.records.value| && forall i :: 0 <= i < |rs| ==> rs[i] == Normalize(resp.records.value[i])
  {
    match resp.records
    case Some(rs) => NormalizeAll(rs)
    case None => []
  }

  /** The answers' records, one answer after the other. Every answer's
      records are among them, and none has its position left `undefined`. */
  function Concat(responses: seq<RawResponse>): (rs: seq<RetrievedRecord>)
    ensures forall i :: 0 <= i < |rs| ==> rs[i].tsnePosition != Undefined
    ensures forall k :: 0 <= k < |responses| ==> multiset(RecordsOf(responses[k])) <= multiset(rs)
  {
    if |responses| == 0 then []
    else
      var rest := Concat(responses[1..]);
      assert forall k :: 0 < k < |responses| ==> responses[k] == responses[1..][k - 1];
      RecordsOf(responses[0]) + rest
  }

  /** Joining is compositional: the records of a longer list of answers are
      those of its parts, in order. */
  lemma {:induction false} ConcatAppend(a: seq<RawResponse>, b: seq<RawResponse>)
    ensures Concat(a + b) == Concat(a) + Concat(b)
  {
    if |a| == 0 {
      assert a + b == b;
    } else {
      assert (a + b)[1..] == a[1..] + b;
      ConcatAppend(a[1..], b);
    }
  }

  /** The merged answer: the query as asked, and the joined records ranked by
      score and cut to `topK` (see `Ranking.Rank`). */
  function Merge(query: string, responses: seq<RawResponse>, topK: int): (m: RetrieveResponse)
    ensures m.query == query
    ensures m.records == Ranking.Rank(Concat(responses), topK)
    // what a caller sees: best first, at most `topK` records, all from the answers
    ensures Ranking.SortedByScore(m.records)
    ensures topK >= 0 ==> |m.records| <= topK
    ensures multiset(m.records) <= multiset(Concat(responses))
  {
    RetrieveResponse(query, Ranking.Rank(Concat(responses), topK))
  }

  /** The `catch` of `retrieveDocuments`: an error with a truthy `status`
      passes unchanged, anything else becomes an `API_ERROR` tool error. */
  function Rethrow(e: Thrown): (r: Thrown)
    ensures e.HasStatus() ==> r == e
    ensures !e.HasStatus() ==> r == Tool(ErrorHandler.HandleApiError(e))
    ensures !e.HasStatus() ==> r.Tool? && r.toolError.code == ErrorHandler.ApiError
    // the wrapped error keeps the original message, or the original value itself
    ensures !e.HasStatus() && e.ErrorObject? ==>
              r.toolError.message == ErrorHandler.ApiPrefix + e.message && r.toolError.details == StackTrace(e.stack)
    ensures !e.HasStatus() && !e.ErrorObject? ==> r.toolError.details == Original(e)
  {
    if e.HasStatus() then e else Tool(ErrorHandler.HandleApiError(e))
  }

  // ---------------------------------------------------------------------------
  // retrieveDocuments

  /** A live cache entry for `key` at `now`. */
  predicate CachedAt(repo: Repository, key: string, now: int)
  {
    key in repo.cache.entries && CacheManager.IsLive(repo.cache.entries[key], now)
  }

  /** The branches a cache miss fans out to, in sorted id order. */
  function Branches(query: string, o: RetrieveOptions, upstream: (string, RetrieveRequest) -> Fetch): seq<Fetch>
  {
    FanOut(IdOrder.SortIds(o.datasetIds), RetrieveRequest(query, TopK(o), Threshold(o)), upstream)
  }

  /** `retrieveDocuments(query, options)`: the cache is read at time `now`,
      and a merged answer is stored at time `done`, when every branch has
      settled (the call awaits them in between); the result (or the thrown
      value) and the repository afterwards. */
  function Retrieve(repo: Repository, now: int, done: int, query: string, o: RetrieveOptions,
                    upstream: (string, RetrieveRequest) -> Fetch,
                    formatNumber: real -> string): (r: (Result<RetrieveResponse, Thrown>, Repository))
    // an empty id list fails first, touching nothing
    ensures |o.datasetIds| == 0 ==> r == (Err(ErrorObject(NoDatasetMessage, None)), repo)
    ensures r.1.config == repo.config && r.1.cache.defaultTTL == repo.cache.defaultTTL
    // a live entry is returned as stored, with no request and no state change
    ensures |o.datasetIds| > 0 && UseCache(o) && CachedAt(repo, KeyFor(query, o, formatNumber), now) ==>
              r == (Ok(repo.cache.entries[KeyFor(query, o, formatNumber)].data), repo)
    // without the cache the repository is left as it was
    ensures !UseCache(o) ==> r.1 == repo
  {
    if |o.datasetIds| == 0 then (Err(ErrorObject(NoDatasetMessage, None)), repo)
    else
      var key := KeyFor(query, o, formatNumber);
      var lookup := if UseCache(o) then CacheManager.Get(repo.cache, key, now) else (None, repo.cache);
      var repo' := repo.(cache := lookup.1);
      if lookup.0.Some? then (Ok(lookup.0.value), repo')
      else
        match Gather(Branches(query, o, upstream))
        case Err(e) => (Err(Rethrow(e)), repo')
        case Ok(responses) =>
          var merged := Merge(query, responses, TopK(o));
          if UseCache(o) then (Ok(merged), repo'.(cache := CacheManager.SetDefault(repo'.cache, key, merged, done)))
          else (Ok(merged), repo')
  }

  /** On a miss the answer is all or nothing: the merge of every branch when
      all succeed, otherwise the (rethrown) failure of one of them. */
  lemma RetrieveOnMiss(repo: Repository, now: int, done: int, query: string, o: RetrieveOptions,
                       upstream: (string, RetrieveRequest) -> Fetch, formatNumber: real -> string)
    requires |o.datasetIds| > 0
    requires !(UseCache(o) && CachedAt(repo, KeyFor(query, o, formatNumber), now))
    ensures var r := Retrieve(repo, now, done, query, o, upstream, formatNumber).0;
            var fs := Branches(query, o, upstream);
            && ((forall i :: 0 <= i < |fs| ==> fs[i].Fetched?) ==> r == Ok(Merge(query, Gather(fs).value, TopK(o))))
            && ((exists i :: 0 <= i < |fs| && fs[i].Rejected?) ==>
                  r.Err? && exists i :: 0 <= i < |fs| && fs[i].Rejected? && r.error == Rethrow(fs[i].error))
  {
    var fs := Branches(query, o, upstream);
    match Gather(fs)
    case Ok(_) =>
    case Err(e) =>
      var i :| 0 <= i < |fs| && fs[i] == Rejected(e);
  }

  /** A failed retrieval stores nothing; only a stale entry read on the way
      is gone. */
  lemma RetrieveFailureStoresNothing(repo: Repository, now: int, done: int, query: string, o: RetrieveOptions,
                                     upstream: (string, RetrieveRequest) -> Fetch, formatNumber: real -> string)
    requires |o.datasetIds| > 0 && UseCache(o)
    requires Retrieve(repo, now, done, query, o, upstream, formatNumber).0.Err?
    ensures Retrieve(repo, now, done, query, o, upstream, formatNumber).1.cache.entries
              == repo.cache.entries - {KeyFor(query, o, formatNumber)}
  {
    var key := KeyFor(query, o, formatNumber);
    assert CacheManager.Get(repo.cache, key, now).0.None?;
  }

  /** A successful retrieval with caching leaves its answer in the cache,
      live from the lookup time `now` (the clock does not run backwards
      while the branches settle). */
  lemma RetrieveSuccessCached(repo: Repository, now: int, done: int, query: string, o: RetrieveOptions,
                              upstream: (string, RetrieveRequest) -> Fetch, formatNumber: real -> string)
    requires |o.datasetIds| > 0 && UseCache(o) && repo.cache.defaultTTL >= 0 && now <= done
    requires CachedAt(repo, KeyFor(query, o, formatNumber), now) || Gather(Branches(query, o, upstream)).Ok?
    ensures var r := Retrieve(repo, now, done, query, o, upstream, formatNumber);
            && r.0.Ok?
            && CachedAt(r.1, KeyFor(query, o, formatNumber), now)
            && r.1.cache.entries[KeyFor(query, o, formatNumber)].data == r.0.value
  {
    var key := KeyFor(query, o, formatNumber);
    if !CachedAt(repo, key, now) {
      RetrieveMissStores(repo, now, done, query, o, upstream, formatNumber);
    }
  }

  /** After a miss, the new entry is stamped `done`, the time the branches
      settled, expires one default lifetime later, and no other key changes. */
  lemma RetrieveMissStores(repo: Repository, now: int, done: int, query: string, o: RetrieveOptions,
                           upstream: (string, RetrieveRequest) -> Fetch, formatNumber: real -> string)
    requires |o.datasetIds| > 0 && UseCache(o)
    requires !CachedAt(repo, KeyFor(query, o, formatNumber), now)
    requires Gather(Branches(query, o, upstream)).Ok?
    ensures var r := Retrieve(repo, now, done, query, o, upstream, formatNumber);
            r.1.cache.entries == repo.cache.entries[KeyFor(query, o, formatNumber) :=
              CacheManager.CacheItem(r.0.value, done, done + repo.cache.defaultTTL)]
  {
    var key := KeyFor(query, o, formatNumber);
    RetrieveMissShape(repo, now, done, query, o, upstream, formatNumber);
    var merged := Merge(query, Gather(Branches(query, o, upstream)).value, TopK(o));
    var item := CacheManager.CacheItem(merged, done, done + repo.cache.defaultTTL);
    ForgetThenStore(repo.cache.entries, key, item);
  }

  /** The shape of a successful miss: the stale entry (if any) is dropped,
      then the merge is stored with the default lifetime. */
  lemma RetrieveMissShape(repo: Repository, now: int, done: int, query: string, o: RetrieveOptions,
                          upstream: (string, RetrieveRequest) -> Fetch, formatNumber: real -> string)
    requires |o.datasetIds| > 0 && UseCache(o)
    requires !CachedAt(repo, KeyFor(query, o, formatNumber), now)
    requires Gather(Branches(query, o, upstream)).Ok?
    ensures var key := KeyFor(query, o, formatNumber);
            var merged := Merge(query, Gather(Branches(query, o, upstream)).value, TopK(o));
            Retrieve(repo, now, done, query, o, upstream, formatNumber)
              == (Ok(merged), repo.(cache := CacheManager.SetDefault(repo.cache.(entries := repo.cache.entries - {key}), key, merged, done)))
  {
    assert CacheManager.Get(repo.cache, KeyFor(query, o, formatNumber), now).0.None?;
  }

  lemma ForgetThenStore<V>(m: map<string, V>, key: string, v: V)
    ensures (m - {key})[key := v] == m[key := v]
  {
  }

  /** The answer depends on the set of datasets, not on the order the caller
      listed them in: the fan-out, the join and the cache key all follow the
      sorted ids. */
  lemma RetrieveIgnoresIdOrder(repo: Repository, now: int, done: int, query: string,
                               o1: RetrieveOptions, o2: RetrieveOptions,
                               upstream: (string, RetrieveRequest) -> Fetch, formatNumber: real -> string)
    requires o1.topK == o2.topK && o1.threshold == o2.threshold && o1.useCache == o2.useCache
    requires multiset(o1.datasetIds) == multiset(o2.datasetIds)
    ensures Retrieve(repo, now, done, query, o1, upstream, formatNumber) == Retrieve(repo, now, done, query, o2, upstream, formatNumber)
  {
    IdOrder.SortIdsCanonical(o1.datasetIds, o2.datasetIds);
    assert |o1.datasetIds| == |multiset(o1.datasetIds)| == |o2.datasetIds|;
  }

  /** A repeated query within the cache lifetime is served from the cache: the
      same answer as the first call, whatever upstream would now say, with
      the ids in any order, and without changing the repository. The first
      call looks up at `t1` and stores at `d1`; the second looks up at `t2`. */
  lemma RepeatServedFromCache(repo: Repository, t1: int, d1: int, t2: int, d2: int, query: string,
                              o1: RetrieveOptions, o2: RetrieveOptions,
                              up1: (string, RetrieveRequest) -> Fetch, up2: (string, RetrieveRequest) -> Fetch,
                              formatNumber: real -> string)
    requires o1.topK == o2.topK && o1.threshold == o2.threshold && UseCache(o1) && UseCache(o2)
    requires multiset(o1.datasetIds) == multiset(o2.datasetIds)
    requires |o1.datasetIds| > 0
    requires !CachedAt(repo, KeyFor(query, o1, formatNumber), t1)
    requires Gather(Branches(query, o1, up1)).Ok?
    requires d1 <= t2 <= d1 + repo.cache.defaultTTL
    ensures var first := Retrieve(repo, t1, d1, query, o1, up1, formatNumber);
            Retrieve(first.1, t2, d2, query, o2, up2, formatNumber) == first
  {
    KeyIgnoresIdOrder(query, o1, o2, formatNumber);
    assert |o1.datasetIds| == |multiset(o1.datasetIds)| == |o2.datasetIds|;
  }

  /** Two datasets answering scores [0.9, 0.3] and [0.8] with `topK = 2`
      merge to the records scored 0.9 and 0.8, in that order. */
  lemma MergeExample(s: Segment)
    ensures var a := RetrievedRecord(s, 0.9, Null);
            var b := RetrievedRecord(s, 0.3, Null);
            var c := RetrievedRecord(s, 0.8, Null);
            Merge("q", [RawResponse(Some([a, b])), RawResponse(Some([c]))], 2).records == [a, c]
  {
    var a := RetrievedRecord(s, 0.9, Null);
    var b := RetrievedRecord(s, 0.3, Null);
    var c := RetrievedRecord(s, 0.8, Null);
    ExampleJoin(a, b, c);
    ExampleRank(a, b, c);
  }

  lemma ExampleJoin(a: RetrievedRecord, b: RetrievedRecord, c: RetrievedRecord)
    requires a.tsnePosition == b.tsnePosition == c.tsnePosition == Null
    ensures Concat([RawResponse(Some([a, b])), RawResponse(Some([c]))]) == [a, b, c]
  {
    ConcatPair(RawResponse(Some([a, b])), RawResponse(Some([c])));
    assert RecordsOf(RawResponse(Some([a, b]))) == [a, b];
    assert RecordsOf(RawResponse(Some([c]))) == [c];
  }

  lemma ConcatPair(x: RawResponse, y: RawResponse)
    ensures Concat([x, y]) == RecordsOf(x) + RecordsOf(y)
  {
    assert [x, y][1..] == [y];
    assert [y][1..] == [];
    assert Concat([y]) == RecordsOf(y) + [];
    assert RecordsOf(y) + [] == RecordsOf(y);
  }

  lemma ExampleRank(a: RetrievedRecord, b: RetrievedRecord, c: RetrievedRecord)
    requires a.score == 0.9 && b.score == 0.3 && c.score == 0.8
    ensures Ranking.Rank([a, b, c], 2) == [a, c]
  {
    ExampleSort(a, b, c);
    assert Ranking.Truncate([a, c, b], 2) == [a, c];
  }

  lemma ExampleSort(a: RetrievedRecord, b: RetrievedRecord, c: RetrievedRecord)
    requires a.score == 0.9 && b.score == 0.3 && c.score == 0.8
    ensures Ranking.SortByScore([a, b, c]) == [a, c, b]
  {
    ExampleSortTail(b, c);
    assert [a, b, c][1..] == [b, c];
    assert Ranking.Insert(a, [c, b]) == [a, c, b];
  }

  lemma ExampleSortTail(b: RetrievedRecord, c: RetrievedRecord)
    requires b.score == 0.3 && c.score == 0.8
    ensures Ranking.SortByScore([b, c]) == [c, b]
  {
    assert [b, c][1..] == [c];
    assert Ranking.SortByScore([c]) == [c];
    assert Ranking.Insert(b, [c]) == [c, b];
  }

  // ---------------------------------------------------------------------------
  // getKnowledgeIds

  const DescriptionSuffix := "的详细说明"

  /** One item of the listing body, before defaulting. */
  datatype RawDataset = RawDataset(
    id: string, name: string, description: Option<string>,
    documentCount: Option<int>, wordCount: Option<int>)

  /** What the listing endpoint answered: `data` may be missing. */
  datatype ListOutcome = Listed(data: Option<seq<RawDataset>>) | ListFailed(error: Thrown)

  /** The descriptor of one listed dataset: a missing or empty description
      becomes `<name>的详细说明`, missing counts become 0. */
  function ToKnowledgeName(d: RawDataset): (k: KnowledgeName)
    ensures k.id == d.id && k.name == d.name
    ensures k.description == if Truthy(d.description) then d.description.value else d.name + DescriptionSuffix
    ensures k.documentCount == d.documentCount.GetOr(0) && k.wordCount == d.wordCount.GetOr(0)
  {
    KnowledgeName(
      d.id, d.name,
      if Truthy(d.description) then d.description.value else d.name + DescriptionSuffix,
      // `count || 0`: a zero count and a missing one both give 0
      if d.documentCount.Some? && d.documentCount.value != 0 then d.documentCount.value else 0,
      if d.wordCount.Some? && d.wordCount.value != 0 then d.wordCount.value else 0)
  }

  function ToKnowledgeNames(ds: seq<RawDataset>): (ks: seq<KnowledgeName>)
    ensures |ks| == |ds|
    ensures forall i :: 0 <= i < |ds| ==> ks[i] == ToKnowledgeName(ds[i])
  {
    if |ds| == 0 then [] else [ToKnowledgeName(ds[0])] + ToKnowledgeNames(ds[1..])
  }

  /** The listing's query parameters: `keyword` only when it is non-empty. */
  function ListingQuery(keyword: Option<string>): (q: seq<(string, string)>)
    ensures Truthy(keyword) ==> q == [("keyword", keyword.value)]
    ensures !Truthy(keyword) ==> q == []
  {
    if Truthy(keyword) then [("keyword", keyword.value)] else []
  }

  /** `getKnowledgeIds(keyword)`: the mapped listing (`None` when the body has
      no `data`), or the listing's failure unchanged. Not cached. */
  function GetKnowledgeIds(repo: Repository, keyword: Option<string>,
                           list: seq<(string, string)> -> ListOutcome): (r: Result<Option<seq<KnowledgeName>>, Thrown>)
    ensures list(ListingQuery(keyword)).ListFailed? ==> r == Err(list(ListingQuery(keyword)).error)
    ensures list(ListingQuery(keyword)).Listed? ==>
              r.Ok? && (r.value.Some? <==> list(ListingQuery(keyword)).data.Some?)
    ensures r.Ok? && r.value.Some? ==>
              var ds := list(ListingQuery(keyword)).data.value;
              |r.value.value| == |ds| && forall i :: 0 <= i < |ds| ==> r.value.value[i] == ToKnowledgeName(ds[i])
  {
    match list(ListingQuery(keyword))
    case ListFailed(e) => Err(e)
    case Listed(data) =>
      match data
      case None => Ok(None)
      case Some(ds) => Ok(Some(ToKnowledgeNames(ds)))
  }
}

=== FILE: dify_service.dfy ===
/** The repository registry (src/services/dify-service.ts): at most one live
    repository, rebuilt — with a fresh, empty cache — only when the API key
    or base URL changes. The process-wide singleton is the `Registry` value
    threaded through the callers. */
module DifyService {
  import opened Wrappers
  import opened Types
  import CacheManager
  import DifyRepository

  datatype Registry = Registry(repository: Option<DifyRepository.Repository>)

  /** The registry before any `init`. */
  const Uninitialized := Registry(None)

  const NotInitializedMessage := "DifyRepository尚未初始化，请先调用init()方法"

  /** Before any `init`, asking for the repository throws. */
  lemma GetBeforeInit()
    ensures GetRepository(Uninitialized) == Err(ErrorObject(NotInitializedMessage, None))
  {
  }

  /** Whether `config` names the same endpoint and credential as `c`. */
  predicate SameEndpoint(c: Config, config: Config)
  {
    c.apiKey == config.apiKey && c.baseUrl == config.baseUrl
  }

  /** `init(config)`: keeps the current repository (and its cache) when the
      endpoint and credential are unchanged, otherwise installs a new
      repository for `config` with an empty cache. */
  function Init(reg: Registry, config: Config): (r: Registry)
    ensures r.repository.Some? && SameEndpoint(r.repository.value.config, config)
    ensures reg.repository.Some? && SameEndpoint(reg.repository.value.config, config) ==> r == reg
    ensures reg.repository.None? || !SameEndpoint(reg.repository.value.config, config) ==>
              && r.repository.value.config == config
              && r.repository.value.cache.entries == map[]
              && r.repository.value.cache.defaultTTL == CacheManager.DefaultTTL
  {
    if reg.repository.None? || !SameEndpoint(reg.repository.value.config, config) then
      Registry(Some(DifyRepository.NewRepository(config)))
    else reg
  }

  /** `getRepository()`: the repository, or the not-initialized error. */
  function GetRepository(reg: Registry): (r: Result<DifyRepository.Repository, Thrown>)
    ensures r.Ok? <==> reg.repository.Some?
    ensures r.Ok? ==> r.value == reg.repository.value
    ensures r.Err? ==> r.error == ErrorObject(NotInitializedMessage, None)
  {
    match reg.repository
    case Some(repo) => Ok(repo)
    case None => Err(ErrorObject(NotInitializedMessage, None))
  }

  /** The registry after the shared repository's cache changed (the
      repository object is shared, so its update is seen here). */
  function WithRepository(reg: Registry, repo: DifyRepository.Repository): (r: Registry)
    ensures r.repository == Some(repo)
  {
    Registry(Some(repo))
  }

  /** `init` is idempotent: a second `init` with the same configuration
      changes nothing, so the cache survives. */
  lemma InitIdempotent(reg: Registry, config: Config)
    ensures Init(Init(reg, config), config) == Init(reg, config)
  {
  }

  /** After any `init`, `getRepository` succeeds and reports the endpoint and
      credential last given. */
  lemma InitThenGet(reg: Registry, config: Config)
    ensures GetRepository(Init(reg, config)).Ok?
    ensures SameEndpoint(GetRepository(Init(reg, config)).value.config, config)
  {
  }

  /** Rotating the credential invalidates the cache: a retrieval after
      re-initialising with a different key can never be a cache hit, so it
      goes to upstream and answers what upstream answers now. */
  lemma NewKeyMissesCache(reg: Registry, config: Config, now: int, done: int, query: string,
                          o: DifyRepository.RetrieveOptions,
                          upstream: (string, DifyRepository.RetrieveRequest) -> DifyRepository.Fetch,
                          formatNumber: real -> string)
    requires reg.repository.Some? && reg.repository.value.config.apiKey != config.apiKey
    requires |o.datasetIds| > 0
    ensures var repo := Init(reg, config).repository.value;
            var fs := DifyRepository.Branches(query, o, upstream);
            (forall i :: 0 <= i < |fs| ==> fs[i].Fetched?) ==>
              DifyRepository.Retrieve(repo, now, done, query, o, upstream, formatNumber).0
                == Ok(DifyRepository.Merge(query, DifyRepository.Gather(fs).value, DifyRepository.TopK(o)))
  {
    var repo := Init(reg, config).repository.value;
    assert !DifyRepository.CachedAt(repo, DifyRepository.KeyFor(query, o, formatNumber), now);
    DifyRepository.RetrieveOnMiss(repo, now, done, query, o, upstream, formatNumber);
  }
}

=== FILE: error_handler.dfy ===
/** Builders of the uniform tool error `{code, message, details}`
    (src/utils/error-handler.ts). Each handler has its own fixed code; an
    `Error` input contributes its message and stack, any other thrown value
    is wrapped whole. */
module ErrorHandler {
  import opened Wrappers
  import opened Types

  const ResolutionFailed := "RESOLUTION_FAILED"
  const DocumentRetrievalFailed := "DOCUMENT_RETRIEVAL_FAILED"
  const ApiError := "API_ERROR"
  const ValidationError := "VALIDATION_ERROR"

  const ResolvePrefix := "名称解析失败: "
  const ResolveUnknown := "未知的名称解析错误"
  const DocumentPrefix := "文档获取失败"
  const DocumentUnknown := "未知的文档获取错误"
  const ApiPrefix := "API请求失败: "
  const ApiUnknown := "未知的API请求错误"
  const ValidationPrefix := "参数验证失败: "
  const ValidationUnknown := "未知的参数验证错误"

  /** `createToolError(code, message, details)`. */
  function CreateToolError(code: string, message: string, details: Details): (r: McpError)
    ensures r.code == code && r.message == message && r.details == details
  {
    McpError(code, message, details)
  }

  /** The shared shape of the three single-prefix handlers: an `Error`
      contributes `prefix + message` and its stack; anything else gives the
      fixed `unknown` message and is kept whole in `details`. */
  function Classify(code: string, prefix: string, unknown: string, error: Thrown): (r: McpError)
    ensures r.code == code
    ensures error.ErrorObject? ==>
      && |r.message| == |prefix| + |error.message|
      && r.message[..|prefix|] == prefix && r.message[|prefix|..] == error.message
      && r.details == StackTrace(error.stack)
    ensures !error.ErrorObject? ==> r.message == unknown && r.details == Original(error)
  {
    match error
    case ErrorObject(message, stack) => McpError(code, prefix + message, StackTrace(stack))
    case _ => McpError(code, unknown, Original(error))
  }

  /** `handleResolveError(error)`. */
  function HandleResolveError(error: Thrown): (r: McpError)
    ensures r.code == ResolutionFailed
    ensures error.ErrorObject? ==> r.message == ResolvePrefix + error.message && r.details == StackTrace(error.stack)
    ensures !error.ErrorObject? ==> r.message == ResolveUnknown && r.details == Original(error)
  {
    Classify(ResolutionFailed, ResolvePrefix, ResolveUnknown, error)
  }

  /** `handleApiError(error)`. */
  function HandleApiError(error: Thrown): (r: McpError)
    ensures r.code == ApiError
    ensures error.ErrorObject? ==> r.message == ApiPrefix + error.message && r.details == StackTrace(error.stack)
    ensures !error.ErrorObject? ==> r.message == ApiUnknown && r.details == Original(error)
  {
    Classify(ApiError, ApiPrefix, ApiUnknown, error)
  }

  /** `handleValidationError(error)`. */
  function HandleValidationError(error: Thrown): (r: McpError)
    ensures r.code == ValidationError
    ensures error.ErrorObject? ==> r.message == ValidationPrefix + error.message && r.details == StackTrace(error.stack)
    ensures !error.ErrorObject? ==> r.message == ValidationUnknown && r.details == Original(error)
  {
    Classify(ValidationError, ValidationPrefix, ValidationUnknown, error)
  }

  /** The ` (docName)` note: present only for a non-empty document name. */
  function DocNote(docName: Option<string>): (r: string)
    ensures Truthy(docName) ==> r == " (" + docName.value + ")"
    ensures !Truthy(docName) ==> r == ""
  {
    if Truthy(docName) then " (" + docName.value + ")" else ""
  }

  /** `handleDocumentError(error, docName)`. */
  function HandleDocumentError(error: Thrown, docName: Option<string>): (r: McpError)
    ensures r.code == DocumentRetrievalFailed
    ensures error.ErrorObject? ==>
      && r.message == DocumentPrefix + DocNote(docName) + ": " + error.message
      && r.details == StackTraceAndDoc(error.stack, docName)
    ensures !error.ErrorObject? ==>
      && r.message == DocumentUnknown + DocNote(docName)
      && r.details == OriginalAndDoc(error, docName)
  {
    match error
    case ErrorObject(message, stack) =>
      McpError(DocumentRetrievalFailed, DocumentPrefix + DocNote(docName) + ": " + message,
               StackTraceAndDoc(stack, docName))
    case _ =>
      McpError(DocumentRetrievalFailed, DocumentUnknown + DocNote(docName), OriginalAndDoc(error, docName))
  }

  /** The handlers lose nothing: the original `Error` message can be read
      back from the tool error, and any other thrown value is kept whole. */
  lemma ApiErrorRecoversCause(error: Thrown)
    ensures error.ErrorObject? ==> HandleApiError(error).message[|ApiPrefix|..] == error.message
    ensures !error.ErrorObject? ==> HandleApiError(error).details.error == error
  {
  }

  /** A document name changes the message only when it is non-empty, and
      then by inserting ` (docName)` right after the fixed prefix. */
  lemma DocumentNoteOnlyWhenNamed(error: Thrown, docName: Option<string>)
    ensures !Truthy(docName) ==> HandleDocumentError(error, docName).message == HandleDocumentError(error, None).message
    ensures Truthy(docName) && error.ErrorObject? ==>
      HandleDocumentError(error, docName).message
        == DocumentPrefix + " (" + docName.value + ")" + HandleDocumentError(error, None).message[|DocumentPrefix|..]
  {
    if Truthy(docName) && error.ErrorObject? {
      var m := HandleDocumentError(error, None).message;
      assert m == DocumentPrefix + ": " + error.message;
      assert m[|DocumentPrefix|..] == ": " + error.message;
    }
  }
}

=== FILE: get_knowledge_docs.dfy ===
/** The `get-knowledge-docs` tool handler (src/tools/get-knowledge-docs.ts):
    requires dataset ids, retrieves the ten best passages through the shared
    repository and renders them as one text item. */
module GetKnowledgeDocs {
  import opened Wrappers
  import opened Types
  import JsText
  import DifyRepository
  import DifyService

  const MissingIdsMessage := "需要提供至少一个知识库ID"

  /** The guidance returned, as a normal result, when nothing was found. */
  const NotFoundText := "未找到相关文档或该知识库的文档尚未完成。这可能是因为您使用了无效的知识库ID。要获取有效的知识库ID，请先使用'resolve-knowledge-ids'工具结合您想要检索文档的关键词。"

  /** What closes every passage, and what joins two passages. */
  const EntryEnd := "\n\n----------"
  const EntryGap := "\n\n"

  /** The handler always asks for the ten best passages. */
  const DocsTopK: int := 10

  /** The retrieval options the handler passes: `topK = 10`, the repository's
      defaults for the threshold and the cache. */
  function DocsOptions(ids: seq<string>): (o: DifyRepository.RetrieveOptions)
    ensures DifyRepository.TopK(o) == 10 && DifyRepository.Threshold(o) == 0.7 && DifyRepository.UseCache(o)
    ensures o.datasetIds == ids
  {
    DifyRepository.RetrieveOptions(Some(DocsTopK), None, None, ids)
  }

  /** Each passage's content followed by the closing rule. */
  function Entries(rs: seq<RetrievedRecord>): (es: seq<string>)
    ensures |es| == |rs|
    ensures forall i :: 0 <= i < |rs| ==> es[i] == rs[i].segment.content + EntryEnd
  {
    if |rs| == 0 then [] else [rs[0].segment.content + EntryEnd] + Entries(rs[1..])
  }

  /** The passages, in ranking order, joined into one text: it opens with
      the best passage and closes with the last one and its rule. */
  function DocsText(rs: seq<RetrievedRecord>): (t: string)
    ensures |rs| == 0 ==> t == ""
    ensures |rs| > 0 ==> rs[0].segment.content <= t
    ensures |rs| > 0 ==> JsText.EndsWith(t, rs[|rs| - 1].segment.content + EntryEnd)
  {
    var es := Entries(rs);
    assert |rs| > 0 ==> rs[0].segment.content <= es[0];
    JsText.Join(es, EntryGap)
  }

  /** The text is built passage by passage: one more passage appends a gap,
      its content and the closing rule, and changes nothing before it. */
  lemma DocsTextSnoc(rs: seq<RetrievedRecord>, x: RetrievedRecord)
    requires |rs| > 0
    ensures DocsText(rs + [x]) == DocsText(rs) + EntryGap + x.segment.content + EntryEnd
  {
    assert Entries(rs + [x]) == Entries(rs) + [x.segment.content + EntryEnd];
    JsText.JoinSnoc(Entries(rs), x.segment.content + EntryEnd, EntryGap);
  }

  /** The text shown for a list of passages: the guidance exactly when there
      is none, since rendered passages always end with the rule. */
  function Render(rs: seq<RetrievedRecord>): (t: string)
    ensures t == NotFoundText <==> |rs| == 0
    ensures |rs| > 0 ==> JsText.EndsWith(t, EntryEnd)
  {
    if |rs| == 0 then NotFoundText
    else
      var t := DocsText(rs);
      EndsWithRule(t, rs[|rs| - 1].segment.content);
      t
  }

  /** A text ending with a passage and its rule ends with the rule, which the
      guidance does not. */
  lemma EndsWithRule(t: string, content: string)
    requires JsText.EndsWith(t, content + EntryEnd)
    ensures JsText.EndsWith(t, EntryEnd) && t != NotFoundText
  {
    assert (content + EntryEnd)[|content + EntryEnd| - |EntryEnd|..] == EntryEnd;
    assert t[|t| - 1] == '-';
    assert NotFoundText[|NotFoundText| - 1] != '-';
  }

  /** `handler({query, datasetIds})`, reading the cache at `now` and storing
      at `done`: the content items (or the thrown value) and the registry
      afterwards. */
  function Handle(reg: DifyService.Registry, now: int, done: int, query: string, datasetIds: Option<seq<string>>,
                  upstream: (string, DifyRepository.RetrieveRequest) -> DifyRepository.Fetch,
                  formatNumber: real -> string): (r: (Result<seq<Content>, Thrown>, DifyService.Registry))
    // missing or empty ids are refused before the registry is consulted
    ensures datasetIds.None? || |datasetIds.value| == 0 ==> r == (Err(ErrorObject(MissingIdsMessage, None)), reg)
    ensures datasetIds.Some? && |datasetIds.value| > 0 && reg.repository.None? ==>
              r == (Err(ErrorObject(DifyService.NotInitializedMessage, None)), reg)
    // a success is exactly one text item
    ensures r.0.Ok? ==> |r.0.value| == 1
    // otherwise the outcome is the repository's, with topK = 10
    ensures datasetIds.Some? && |datasetIds.value| > 0 && reg.repository.Some? ==>
              var (res, repo') := DifyRepository.Retrieve(reg.repository.value, now, done, query, DocsOptions(datasetIds.value),
                                                          upstream, formatNumber);
              && r.1 == DifyService.WithRepository(reg, repo')
              && (res.Err? ==> r.0 == Err(res.error))
              && (res.Ok? ==> r.0 == Ok([Text(Render(res.value.records))]))
  {
    if datasetIds.None? || |datasetIds.value| == 0 then (Err(ErrorObject(MissingIdsMessage, None)), reg)
    else
      match DifyService.GetRepository(reg)
      case Err(e) => (Err(e), reg)
      case Ok(repo) =>
        var (res, repo') := DifyRepository.Retrieve(repo, now, done, query, DocsOptions(datasetIds.value), upstream, formatNumber);
        var reg' := DifyService.WithRepository(reg, repo');
        match res
        case Err(e) => (Err(e), reg')
        case Ok(response) => (Ok([Text(Render(response.records))]), reg')
  }

  /** With a cold cache and every dataset answering, the call succeeds and
      shows the merge of the answers, which holds at most ten passages; the
      not-found guidance appears exactly when the merge is empty. */
  lemma HandleShowsAtMostTen(reg: DifyService.Registry, now: int, done: int, query: string, ids: seq<string>,
                             upstream: (string, DifyRepository.RetrieveRequest) -> DifyRepository.Fetch,
                             formatNumber: real -> string)
    requires reg.repository.Some? && |ids| > 0
    requires DifyService.GetRepository(reg).value.cache.entries == map[]
    requires DifyRepository.Gather(DifyRepository.Branches(query, DocsOptions(ids), upstream)).Ok?
    ensures var merged := DifyRepository.Merge(query, DifyRepository.Gather(DifyRepository.Branches(query, DocsOptions(ids), upstream)).value, DocsTopK);
            var r := Handle(reg, now, done, query, Some(ids), upstream, formatNumber).0;
            && r == Ok([Text(Render(merged.records))])
            && |merged.records| <= DocsTopK
            && (r.value[0].text == NotFoundText <==> |merged.records| == 0)
  {
    var repo := reg.repository.value;
    var o := DocsOptions(ids);
    assert !DifyRepository.CachedAt(repo, DifyRepository.KeyFor(query, o, formatNumber), now);
    DifyRepository.RetrieveOnMiss(repo, now, done, query, o, upstream, formatNumber);
  }
}

=== FILE: id_order.dfy ===
/** `Array.prototype.sort()` without a comparator on dataset ids: strings in
    ascending UTF-16 code-unit order. Any two orderings of the same ids sort
    to the same sequence, which is what makes the cache key and the fan-out
    order independent of how the caller listed the ids. */
module IdOrder {

  /** A character's place in UTF-16 code-unit order. A character outside the
      Basic Multilingual Plane is written as a surrogate pair whose first
      unit lies in 0xD800..0xDBFF, so it sorts after U+0000..U+D7FF and
      before U+E000..U+FFFF; among themselves such characters keep their
      scalar order. */
  function UnitRank(c: char): (k: int)
    ensures c as int < 0xD800 ==> k == c as int
    ensures 0xE000 <= c as int < 0x10000 ==> k > 0x10D7FF
    ensures 0x10000 <= c as int ==> 0xD800 <= k <= 0x10D7FF
  {
    if c as int < 0xD800 then c as int
    else if c as int >= 0x10000 then 0xD800 + (c as int - 0x10000)
    else c as int + 0x100000
  }

  /** The UTF-16 code units of one character: the character itself inside
      the Basic Multilingual Plane, otherwise a high surrogate followed by a
      low surrogate. */
  function Utf16(c: char): (u: seq<int>)
    ensures 1 <= |u| <= 2
  {
    if c as int < 0x10000 then [c as int]
    else
      var v := c as int - 0x10000;
      [0xD800 + v / 0x400, 0xDC00 + v % 0x400]
  }

  /** The UTF-16 code units of a string, character by character. */
  function Utf16String(s: string): (u: seq<int>)
    ensures |s| > 0 ==> |u| > 0
  {
    if |s| == 0 then [] else Utf16(s[0]) + Utf16String(s[1..])
  }

  /** Strict lexicographic order on code-unit sequences; a proper prefix
      comes first. This is JavaScript's `<` on strings. */
  predicate CodeUnitsLess(a: seq<int>, b: seq<int>)
  {
    |b| > 0 && (|a| == 0 || a[0] < b[0] || (a[0] == b[0] && CodeUnitsLess(a[1..], b[1..])))
  }

  /** Splitting into a quotient and a remainder by 0x400 keeps the order. */
  lemma SplitOrder(x: nat, y: nat)
    ensures x < y <==> x / 0x400 < y / 0x400 || (x / 0x400 == y / 0x400 && x % 0x400 < y % 0x400)
  {
    assert x == 0x400 * (x / 0x400) + x % 0x400;
    assert y == 0x400 * (y / 0x400) + y % 0x400;
    if x / 0x400 < y / 0x400 {
      assert 0x400 * (x / 0x400) + 0x400 <= 0x400 * (y / 0x400);
    } else if y / 0x400 < x / 0x400 {
      assert 0x400 * (y / 0x400) + 0x400 <= 0x400 * (x / 0x400);
    }
  }

  /** `UnitRank` orders characters exactly as their UTF-16 code units do. */
  lemma UnitRankIsCodeUnitOrder(c: char, d: char)
    ensures UnitRank(c) < UnitRank(d) <==> CodeUnitsLess(Utf16(c), Utf16(d))
  {
    if c as int >= 0x10000 && d as int >= 0x10000 {
      var u, w := Utf16(c), Utf16(d);
      SplitOrder(c as int - 0x10000, d as int - 0x10000);
      assert CodeUnitsLess(u, w) <==> u[0] < w[0] || (u[0] == w[0] && CodeUnitsLess(u[1..], w[1..]));
      assert CodeUnitsLess(u[1..], w[1..]) <==> u[1] < w[1];
    } else if c as int >= 0x10000 {
      assert (c as int - 0x10000) / 0x400 < 0x400;
    } else if d as int >= 0x10000 {
      assert (d as int - 0x10000) / 0x400 < 0x400;
    }
  }

  lemma {:induction false} CodeUnitsLessCommonPrefix(p: seq<int>, x: seq<int>, y: seq<int>)
    ensures CodeUnitsLess(p + x, p + y) <==> CodeUnitsLess(x, y)
  {
    if |p| > 0 {
      assert (p + x)[1..] == p[1..] + x;
      assert (p + y)[1..] == p[1..] + y;
      CodeUnitsLessCommonPrefix(p[1..], x, y);
    } else {
      assert p + x == x && p + y == y;
    }
  }

  /** Once two sequences differ at `i`, what follows them does not matter. */
  lemma {:induction false} CodeUnitsLessDiverge(u: seq<int>, w: seq<int>, x: seq<int>, y: seq<int>, i: nat)
    requires i < |u| && i < |w| && u[..i] == w[..i] && u[i] != w[i]
    ensures CodeUnitsLess(u + x, w + y) <==> CodeUnitsLess(u, w)
  {
    if i > 0 {
      assert u[0] == u[..i][0] == w[..i][0] == w[0];
      assert (u + x)[1..] == u[1..] + x;
      assert (w + y)[1..] == w[1..] + y;
      assert u[1..][..i - 1] == u[..i][1..];
      assert w[1..][..i - 1] == w[..i][1..];
      CodeUnitsLessDiverge(u[1..], w[1..], x, y, i - 1);
    }
  }

  /** A character's first code unit is a high surrogate exactly when the
      character lies outside the Basic Multilingual Plane. */
  lemma LeadUnitRange(c: char)
    ensures c as int < 0x10000 ==> Utf16(c)[0] == c as int
    ensures 0xD800 <= Utf16(c)[0] < 0xDC00 <==> c as int >= 0x10000
  {
    if c as int >= 0x10000 {
      assert (c as int - 0x10000) / 0x400 < 0x400;
    }
  }

  /** Two different characters have different code units at some place both
      encodings reach. */
  lemma Utf16Diverge(c: char, d: char) returns (i: nat)
    requires c != d
    ensures i < |Utf16(c)| && i < |Utf16(d)|
    ensures Utf16(c)[..i] == Utf16(d)[..i] && Utf16(c)[i] != Utf16(d)[i]
  {
    LeadUnitRange(c);
    LeadUnitRange(d);
    if Utf16(c)[0] != Utf16(d)[0] {
      i := 0;
    } else {
      var x, y := c as int - 0x10000, d as int - 0x10000;
      assert x == 0x400 * (x / 0x400) + x % 0x400;
      assert y == 0x400 * (y / 0x400) + y % 0x400;
      i := 1;
    }
  }

  /** `LexLeq` is JavaScript's `<=` on strings: `a <= b` exactly when the
      code units of `b` do not sort strictly before those of `a`. */
  lemma {:induction false} LexLeqIsCodeUnitOrder(a: string, b: string)
    ensures LexLeq(a, b) <==> !CodeUnitsLess(Utf16String(b), Utf16String(a))
  {
    if |a| > 0 && |b| > 0 {
      var ua, ub := Utf16String(a), Utf16String(b);
      assert ua == Utf16(a[0]) + Utf16String(a[1..]);
      assert ub == Utf16(b[0]) + Utf16String(b[1..]);
      if a[0] == b[0] {
        CodeUnitsLessCommonPrefix(Utf16(a[0]), Utf16String(b[1..]), Utf16String(a[1..]));
        LexLeqIsCodeUnitOrder(a[1..], b[1..]);
      } else {
        var i := Utf16Diverge(b[0], a[0]);
        CodeUnitsLessDiverge(Utf16(b[0]), Utf16(a[0]), Utf16String(b[1..]), Utf16String(a[1..]), i);
        UnitRankIsCodeUnitOrder(b[0], a[0]);
        assert UnitRank(a[0]) != UnitRank(b[0]);
      }
    }
  }

  /** `a <= b` on JavaScript strings: lexicographic by UTF-16 code unit, a
      proper prefix before its extensions. Comparing the first differing
      characters by `UnitRank` is the same as comparing their code units
      (`UnitRankIsCodeUnitOrder`), and `LexLeqIsCodeUnitOrder` proves the
      whole order equal to the code-unit order of `Utf16String`. */
  predicate LexLeq(a: string, b: string)
  {
    |a| == 0 || (|b| > 0 && (UnitRank(a[0]) < UnitRank(b[0]) || (a[0] == b[0] && LexLeq(a[1..], b[1..]))))
  }

  /** U+1F600 is the pair 0xD83D 0xDE00 and so sorts before U+FF21, though
      its scalar value is larger. */
  lemma SurrogatePairBeforeHighBmp()
    ensures LexLeq("\U{1F600}", "\U{FF21}") && !LexLeq("\U{FF21}", "\U{1F600}")
  {
  }

  lemma {:induction false} LexLeqTotal(a: string, b: string)
    ensures LexLeq(a, b) || LexLeq(b, a)
  {
    if |a| > 0 && |b| > 0 && a[0] == b[0] {
      LexLeqTotal(a[1..], b[1..]);
    }
  }

  lemma {:induction false} LexLeqAntisymmetric(a: string, b: string)
    requires LexLeq(a, b) && LexLeq(b, a)
    ensures a == b
  {
    if |a| > 0 && |b| > 0 {
      LexLeqAntisymmetric(a[1..], b[1..]);
      assert a == [a[0]] + a[1..];
      assert b == [b[0]] + b[1..];
    }
  }

  lemma {:induction false} LexLeqTransitive(a: string, b: string, c: string)
    requires LexLeq(a, b) && LexLeq(b, c)
    ensures LexLeq(a, c)
  {
    if |a| > 0 && |b| > 0 && |c| > 0 && a[0] == b[0] == c[0] {
      LexLeqTransitive(a[1..], b[1..], c[1..]);
    }
  }

  lemma LexLeqReflexive(a: string)
    ensures LexLeq(a, a)
  {
  }

  predicate Ascending(xs: seq<string>)
  {
    forall i, j :: 0 <= i < j < |xs| ==> LexLeq(xs[i], xs[j])
  }

  /** Inserts `x` before the first element it does not exceed. */
  function InsertId(x: string, xs: seq<string>): (r: seq<string>)
    requires Ascending(xs)
    ensures Ascending(r)
    ensures multiset(r) == multiset(xs) + multiset{x}
    ensures |r| > 0 && (r[0] == x || (|xs| > 0 && r[0] == xs[0]))
  {
    if |xs| == 0 then [x]
    else if LexLeq(x, xs[0]) then
      PrependAscending(x, xs);
      [x] + xs
    else
      var rest := InsertId(x, xs[1..]);
      assert xs == [xs[0]] + xs[1..];
      LexLeqTotal(x, xs[0]);
      assert LexLeq(xs[0], rest[0]);
      PrependAscending(xs[0], rest);
      [xs[0]] + rest
  }

  /** An element no greater than the head of an ascending sequence may go in
      front of it. */
  lemma PrependAscending(h: string, t: seq<string>)
    requires Ascending(t)
    requires |t| > 0 ==> LexLeq(h, t[0])
    ensures Ascending([h] + t)
  {
    forall j | 0 < j < |t| {
      LexLeqTransitive(h, t[0], t[j]);
    }
  }

  /** The ids in ascending order (an insertion sort). */
  function SortIds(xs: seq<string>): (r: seq<string>)
    ensures Ascending(r)
    ensures multiset(r) == multiset(xs)
  {
    if |xs| == 0 then []
    else
      assert xs == [xs[0]] + xs[1..];
      InsertId(xs[0], SortIds(xs[1..]))
  }

  /** Two ascending sequences holding the same ids are equal. */
  lemma {:induction false} AscendingUnique(a: seq<string>, b: seq<string>)
    requires Ascending(a) && Ascending(b)
    requires multiset(a) == multiset(b)
    ensures a == b
  {
    if |a| == 0 {
      assert |multiset(b)| == 0;
    } else {
      assert |b| > 0 by { assert |multiset(b)| == |multiset(a)| == |a|; }
      SameHead(a, b);
      WithoutHead(a);
      WithoutHead(b);
      AscendingUnique(a[1..], b[1..]);
      assert a == [a[0]] + a[1..];
      assert b == [b[0]] + b[1..];
    }
  }

  /** Two non-empty ascending sequences holding the same ids start alike. */
  lemma SameHead(a: seq<string>, b: seq<string>)
    requires Ascending(a) && Ascending(b) && |a| > 0 && |b| > 0
    requires multiset(a) == multiset(b)
    ensures a[0] == b[0]
  {
    assert b[0] in multiset(a);
    var i :| 0 <= i < |a| && a[i] == b[0];
    assert a[0] in multiset(b);
    var j :| 0 <= j < |b| && b[j] == a[0];
    if i > 0 {
      assert LexLeq(a[0], b[0]);
    } else {
      LexLeqReflexive(a[0]);
    }
    if j > 0 {
      assert LexLeq(b[0], a[0]);
    } else {
      LexLeqReflexive(b[0]);
    }
    LexLeqAntisymmetric(a[0], b[0]);
  }

  /** Dropping the head of an ascending sequence drops one copy of it. */
  lemma WithoutHead(a: seq<string>)
    requires Ascending(a) && |a| > 0
    ensures Ascending(a[1..])
    ensures multiset(a[1..]) == multiset(a) - multiset{a[0]}
  {
    assert a == [a[0]] + a[1..];
  }

  /** Sorting forgets the order the ids were given in. */
  lemma SortIdsCanonical(a: seq<string>, b: seq<string>)
    requires multiset(a) == multiset(b)
    ensures SortIds(a) == SortIds(b)
  {
    AscendingUnique(SortIds(a), SortIds(b));
  }
}

=== FILE: index.dfy ===
/** The decisions the entry point (src/index.ts) makes: the client address
    taken from `X-Forwarded-For`, the routing of each HTTP request, the
    table of open SSE sessions, the bounded port retry and the checks on
    the `--transport` and `--port` options. Sockets, the MCP SDK transports
    and express are left out; what they would be handed is named by the
    `Outcome` of a request. */
module Index {
  import opened Wrappers
  import opened Types
  import JsText
  import DifyService

  // ---------------------------------------------------------------------
  // Client address

  /** The `x-forwarded-for` header as Node presents it: absent, one string,
      or an array of strings. */
  datatype ForwardedFor = NoHeader | Single(value: string) | Multiple(values: seq<string>)

  /** What reading `.split` of `undefined` throws. */
  const NoFirstValueMessage := "Cannot read properties of undefined (reading 'split')"

  /** The first hop named by a header value: the text before its first
      comma, without surrounding whitespace. */
  function FirstHop(value: string): (r: string)
    ensures ',' !in r
    ensures r == JsText.Trim(JsText.BeforeFirstComma(value))
  {
    var r := JsText.Trim(JsText.BeforeFirstComma(value));
    assert forall k :: 0 <= k < |r| ==> r[k] in JsText.BeforeFirstComma(value);
    r
  }

  /** `getClientIp`: the first hop of the header when the header is truthy
      (an empty string is not), the socket's remote address otherwise. An
      empty array is truthy but has no first element, so it throws. */
  function ClientIp(header: ForwardedFor, remoteAddress: Option<string>): (r: Result<Option<string>, Thrown>)
    ensures header.NoHeader? || header == Single("") ==> r == Ok(remoteAddress)
    ensures header.Single? && header.value != "" ==> r == Ok(Some(FirstHop(header.value)))
    ensures header.Multiple? && |header.values| > 0 ==> r == Ok(Some(FirstHop(header.values[0])))
    ensures r.Err? <==> header == Multiple([])
    ensures !header.NoHeader? && header != Single("") && r.Ok? ==>
              r.value.Some? && ',' !in r.value.value
  {
    match header
    case NoHeader => Ok(remoteAddress)
    case Single(value) => if value == "" then Ok(remoteAddress) else Ok(Some(FirstHop(value)))
    case Multiple(values) =>
      if |values| == 0 then Err(ErrorObject(NoFirstValueMessage, None)) else Ok(Some(FirstHop(values[0])))
  }

  /** A proxy chain `client, proxy1, ...` yields the client's address, with
      the whitespace around it removed. */
  lemma ClientIpTakesFirstHop(client: string, rest: string, remoteAddress: Option<string>)
    requires ',' !in client
    ensures ClientIp(Single(client + "," + rest), remoteAddress) == Ok(Some(JsText.Trim(client)))
    ensures ClientIp(Multiple([client + "," + rest]), remoteAddress) == Ok(Some(JsText.Trim(client)))
  {
    var s := client + "," + rest;
    assert s[|client|] == ',';
    var b := JsText.BeforeFirstComma(s);
    assert forall k :: 0 <= k < |client| ==> s[k] == client[k] && s[k] != ',';
    assert s[|client|] == ',';
    assert |b| == |client|;
    assert b == client;
  }

  // ---------------------------------------------------------------------
  // Routing

  /** Where a request goes, decided by its method and path only. */
  datatype Route = Preflight | StreamableHttp | OpenStream | PostToSession | Ping | Unrouted

  function RouteOf(verb: string, path: string): (r: Route)
    // the preflight check comes before any path check
    ensures r == Preflight <==> verb == "OPTIONS"
    ensures r == StreamableHttp <==> verb != "OPTIONS" && path == "/mcp"
    ensures r == OpenStream <==> verb == "GET" && path == "/sse"
    ensures r == PostToSession <==> verb == "POST" && path == "/messages"
    ensures r == Ping <==> verb != "OPTIONS" && path == "/ping"
  {
    if verb == "OPTIONS" then Preflight
    else if path == "/mcp" then StreamableHttp
    else if path == "/sse" && verb == "GET" then OpenStream
    else if path == "/messages" && verb == "POST" then PostToSession
    else if path == "/ping" then Ping
    else Unrouted
  }

  /** `/sse` and `/messages` accept one method each: the other methods are
      not found, while `/mcp` and `/ping` take any method but OPTIONS. */
  lemma WrongMethodIsUnrouted(verb: string)
    requires verb != "OPTIONS"
    ensures verb != "GET" ==> RouteOf(verb, "/sse") == Unrouted
    ensures verb != "POST" ==> RouteOf(verb, "/messages") == Unrouted
    ensures RouteOf(verb, "/mcp") == StreamableHttp && RouteOf(verb, "/ping") == Ping
  {
  }

  // ---------------------------------------------------------------------
  // Session table

  /** Stands for the SSE transport of one open event stream. */
  datatype Channel = Channel(sessionId: string)

  type Sessions = map<string, Channel>

  /** A new event stream registers its channel under its session id. */
  function OpenSession(sessions: Sessions, id: string): (r: Sessions)
    ensures id in r && r[id] == Channel(id)
    ensures r.Keys == sessions.Keys + {id}
    ensures forall k :: k in sessions && k != id ==> r[k] == sessions[k]
  {
    sessions[id := Channel(id)]
  }

  /** Closing the stream removes exactly its own id. */
  function CloseSession(sessions: Sessions, id: string): (r: Sessions)
    ensures id !in r
    ensures r.Keys == sessions.Keys - {id}
    ensures forall k :: k in r ==> r[k] == sessions[k]
  {
    sessions - {id}
  }

  datatype SessionEvent = Opened(id: string) | Closed(id: string)

  /** The table after a history of opens and closes, starting empty. */
  function Replay(events: seq<SessionEvent>): Sessions
  {
    if |events| == 0 then map[]
    else
      var table := Replay(events[..|events| - 1]);
      match events[|events| - 1]
      case Opened(id) => OpenSession(table, id)
      case Closed(id) => CloseSession(table, id)
  }

  /** `id` was opened and has not been closed since. */
  predicate OpenedSinceLastClose(events: seq<SessionEvent>, id: string)
  {
    exists i :: 0 <= i < |events| && events[i] == Opened(id) &&
      forall j :: i < j < |events| ==> events[j].id != id
  }

  /** A session id is in the table exactly when its last event opened it. */
  lemma {:induction false} ReplayHoldsOpenSessions(events: seq<SessionEvent>, id: string)
    ensures id in Replay(events) <==> OpenedSinceLastClose(events, id)
    ensures id in Replay(events) ==> Replay(events)[id] == Channel(id)
  {
    if |events| > 0 {
      var n := |events| - 1;
      ReplayHoldsOpenSessions(events[..n], id);
      if events[n].id != id {
        UnrelatedEventKeepsState(events, id);
      } else if events[n].Opened? {
        assert events[n] == Opened(id);
      } else {
        assert events[n].id == id;
      }
    }
  }

  /** An event about another id does not change whether `id` is open. */
  lemma UnrelatedEventKeepsState(events: seq<SessionEvent>, id: string)
    requires |events| > 0 && events[|events| - 1].id != id
    ensures OpenedSinceLastClose(events, id) <==> OpenedSinceLastClose(events[..|events| - 1], id)
  {
    if OpenedSinceLastClose(events, id) {
      OpenStaysOpenWithout(events, id);
    }
    if OpenedSinceLastClose(events[..|events| - 1], id) {
      OpenStaysOpenWith(events, id);
    }
  }

  lemma OpenStaysOpenWithout(events: seq<SessionEvent>, id: string)
    requires |events| > 0 && events[|events| - 1].id != id
    requires OpenedSinceLastClose(events, id)
    ensures OpenedSinceLastClose(events[..|events| - 1], id)
  {
    var n := |events| - 1;
    var earlier := events[..n];
    var i :| 0 <= i < |events| && events[i] == Opened(id) &&
             forall j :: i < j < |events| ==> events[j].id != id;
    assert i != n by { assert events[i].id == id; }
    assert earlier[i] == Opened(id);
    forall j | i < j < n ensures earlier[j].id != id {
      assert earlier[j] == events[j];
    }
  }

  lemma OpenStaysOpenWith(events: seq<SessionEvent>, id: string)
    requires |events| > 0 && events[|events| - 1].id != id
    requires OpenedSinceLastClose(events[..|events| - 1], id)
    ensures OpenedSinceLastClose(events, id)
  {
    var n := |events| - 1;
    var earlier := events[..n];
    var i :| 0 <= i < n && earlier[i] == Opened(id) &&
             forall j :: i < j < n ==> earlier[j].id != id;
    assert events[i] == Opened(id);
    forall j | i < j < |events| ensures events[j].id != id {
      if j < n {
        assert events[j] == earlier[j];
      }
    }
  }

  // ---------------------------------------------------------------------
  // Posting to a session

  /** What a request is answered with, or handed to. */
  datatype Outcome =
    | Respond(status: int, body: string)
    | ToStreamableTransport
    | EventStream(sessionId: string)
    | ToChannel(channel: Channel)

  const MissingSessionBody := "缺少sessionId参数"
  const UnknownSessionPrefix := "未找到sessionId的传输: "
  const NotFoundBody := "未找到"
  const InternalErrorBody := "内部服务器错误"
  const PongBody := "pong"

  /** A `/messages` POST: `sessionParam` is the `sessionId` query parameter.
      Posting never changes the table. */
  function PostMessage(sessions: Sessions, sessionParam: Option<string>): (r: Outcome)
    ensures sessionParam.GetOr("") == "" ==> r == Respond(400, MissingSessionBody)
    ensures r.ToChannel? <==> sessionParam.Some? && sessionParam.value != "" && sessionParam.value in sessions
    ensures r.ToChannel? ==> r.channel == sessions[sessionParam.value]
    ensures sessionParam.Some? && sessionParam.value != "" && sessionParam.value !in sessions ==>
              r == Respond(400, UnknownSessionPrefix + sessionParam.value)
    ensures r.Respond? ==> r.status == 400
  {
    var id := sessionParam.GetOr("");
    if id == "" then Respond(400, MissingSessionBody)
    else if id in sessions then ToChannel(sessions[id])
    else Respond(400, UnknownSessionPrefix + id)
  }

  /** The names every plain object inherits from `Object.prototype`. */
  const ObjectPrototypeNames: set<string> := {
    "constructor", "__proto__", "toString", "toLocaleString", "valueOf",
    "hasOwnProperty", "isPrototypeOf", "propertyIsEnumerable",
    "__defineGetter__", "__defineSetter__", "__lookupGetter__", "__lookupSetter__"
  }

  /** What indexing the plain-object session table yields. */
  datatype Lookup = Own(channel: Channel) | Inherited | Absent

  /** Property lookup on a plain object: own keys first, then the names it
      inherits, all of which hold truthy values (functions or objects). */
  function LookupAsWritten(sessions: Sessions, id: string): (r: Lookup)
    ensures r.Own? <==> id in sessions
    ensures r.Inherited? <==> id !in sessions && id in ObjectPrototypeNames
  {
    if id in sessions then Own(sessions[id])
    else if id in ObjectPrototypeNames then Inherited
    else Absent
  }

  /** A `/messages` POST as the source writes it: an inherited value passes
      the truthiness check, has no `handlePostMessage`, and the call throws,
      which the request handler turns into a 500. */
  function PostMessageAsWritten(sessions: Sessions, sessionParam: Option<string>): (r: Outcome)
    ensures sessionParam.Some? && sessionParam.value !in sessions && sessionParam.value in ObjectPrototypeNames ==>
              r == Respond(500, InternalErrorBody)
    ensures sessionParam.GetOr("") !in ObjectPrototypeNames ==> r == PostMessage(sessions, sessionParam)
  {
    var id := sessionParam.GetOr("");
    if id == "" then Respond(400, MissingSessionBody)
    else
      match LookupAsWritten(sessions, id)
      case Own(channel) => ToChannel(channel)
      case Inherited => Respond(500, InternalErrorBody)
      case Absent => Respond(400, UnknownSessionPrefix + id)
  }

  /** `POST /messages?sessionId=constructor` with no such session: the
      source answers 500 where an unknown session should get a 400. */
  lemma PrototypeNameAnswers500(sessions: Sessions)
    requires "constructor" !in sessions
    ensures PostMessageAsWritten(sessions, Some("constructor")) == Respond(500, InternalErrorBody)
    ensures PostMessage(sessions, Some("constructor")) == Respond(400, UnknownSessionPrefix + "constructor")
  {
  }

  // ---------------------------------------------------------------------
  // Handling one request

  datatype Request = Request(
    verb: string,
    path: string,
    sessionParam: Option<string>,
    forwardedFor: ForwardedFor,
    remoteAddress: Option<string>)

  /** What the process keeps between requests. */
  datatype Server = Server(registry: DifyService.Registry, sessions: Sessions)

  /** The endpoint a per-request server instance initialises the service
      with: the configured base URL, and the `--dify-api-key` value when it
      is truthy, the configured key otherwise (src/server.ts). */
  function EffectiveConfig(configured: Config, cliApiKey: Option<string>): (c: Config)
    ensures c.baseUrl == configured.baseUrl
    ensures Truthy(cliApiKey) ==> c.apiKey == cliApiKey.value
    ensures !Truthy(cliApiKey) ==> c.apiKey == configured.apiKey
  {
    Config(configured.baseUrl, if Truthy(cliApiKey) then cliApiKey.value else configured.apiKey)
  }

  /** One HTTP request. `freshId` is the session id the SSE transport would
      generate for a new stream. */
  function HandleRequest(s: Server, req: Request, configured: Config, cliApiKey: Option<string>,
                         freshId: string): (r: (Outcome, Server))
    ensures req.verb == "OPTIONS" ==> r == (Respond(200, ""), s)
    ensures req.verb != "OPTIONS" && req.forwardedFor == Multiple([]) ==> r == (Respond(500, InternalErrorBody), s)
    ensures req.verb != "OPTIONS" && req.forwardedFor != Multiple([]) ==>
              r.1.registry == DifyService.Init(s.registry, EffectiveConfig(configured, cliApiKey))
    // only opening a stream changes the session table
    ensures r.1.sessions == (if r.0.EventStream? then OpenSession(s.sessions, freshId) else s.sessions)
    ensures r.0.EventStream? <==> RouteOf(req.verb, req.path) == OpenStream && req.forwardedFor != Multiple([])
    ensures r.0.EventStream? ==> r.0.sessionId == freshId
    ensures RouteOf(req.verb, req.path) == Unrouted && req.forwardedFor != Multiple([]) ==>
              r.0 == Respond(404, NotFoundBody)
    // `/mcp` is handed to the streamable transport, whatever the method
    ensures RouteOf(req.verb, req.path) == StreamableHttp && req.forwardedFor != Multiple([]) ==>
              r.0 == ToStreamableTransport && r.1.sessions == s.sessions
    ensures RouteOf(req.verb, req.path) == Ping && req.forwardedFor != Multiple([]) ==>
              r.0 == Respond(200, PongBody)
    // a POST to a session goes through the plain-object lookup: it agrees
    // with `PostMessage` except on the names objects inherit
    ensures RouteOf(req.verb, req.path) == PostToSession && req.forwardedFor != Multiple([]) ==>
              r.0 == PostMessageAsWritten(s.sessions, req.sessionParam)
    ensures RouteOf(req.verb, req.path) == PostToSession && req.forwardedFor != Multiple([])
            && req.sessionParam.GetOr("") !in ObjectPrototypeNames ==>
              r.0 == PostMessage(s.sessions, req.sessionParam)
  {
    if req.verb == "OPTIONS" then (Respond(200, ""), s)
    else
      match ClientIp(req.forwardedFor, req.remoteAddress)
      case Err(_) => (Respond(500, InternalErrorBody), s)
      case Ok(_) =>
        var registry := DifyService.Init(s.registry, EffectiveConfig(configured, cliApiKey));
        // OPTIONS was answered above, so the route is never `Preflight` here
        match RouteOf(req.verb, req.path)
        case StreamableHttp => (ToStreamableTransport, s.(registry := registry))
        case OpenStream => (EventStream(freshId), Server(registry, OpenSession(s.sessions, freshId)))
        case PostToSession => (PostMessageAsWritten(s.sessions, req.sessionParam), s.(registry := registry))
        case Ping => (Respond(200, PongBody), s.(registry := registry))
        case Unrouted => (Respond(404, NotFoundBody), s.(registry := registry))
  }

  /** A stream opened by `GET /sse` receives the POSTs naming its session
      until the stream closes; after that they get a 400. The transport's
      session ids are UUIDs, never one of the inherited names. */
  lemma OpenPostClose(s: Server, open: Request, post: Request, configured: Config, cliApiKey: Option<string>,
                      freshId: string, otherId: string)
    requires open.verb == "GET" && open.path == "/sse" && open.forwardedFor != Multiple([])
    requires post.verb == "POST" && post.path == "/messages" && post.forwardedFor != Multiple([])
    requires post.sessionParam == Some(freshId) && freshId != "" && freshId !in ObjectPrototypeNames
    ensures var (o1, s1) := HandleRequest(s, open, configured, cliApiKey, freshId);
            && o1 == EventStream(freshId)
            && HandleRequest(s1, post, configured, cliApiKey, otherId).0 == ToChannel(Channel(freshId))
            && HandleRequest(s1.(sessions := CloseSession(s1.sessions, freshId)), post, configured, cliApiKey, otherId).0
                 == Respond(400, UnknownSessionPrefix + freshId)
  {
  }

  /** Through the whole request handler, `POST /messages?sessionId=constructor`
      with no such session is answered 500 instead of the 400 an unknown
      session gets. */
  lemma HandleRequestPrototypeName(s: Server, post: Request, configured: Config, cliApiKey: Option<string>,
                                   freshId: string)
    requires post.verb == "POST" && post.path == "/messages" && post.forwardedFor != Multiple([])
    requires post.sessionParam == Some("constructor") && "constructor" !in s.sessions
    ensures HandleRequest(s, post, configured, cliApiKey, freshId).0 == Respond(500, InternalErrorBody)
    ensures HandleRequest(s, post, configured, cliApiKey, freshId).0
              != PostMessage(s.sessions, post.sessionParam)
  {
    PrototypeNameAnswers500(s.sessions);
  }

  // ---------------------------------------------------------------------
  // Port retry

  /** How one `listen` attempt ends. */
  datatype ListenResult = Listening | AddressInUse | ListenFailed(message: string)

  datatype StartOutcome = Started(port: int) | Exited(status: int)

  /** The default number of further ports tried after the initial one. */
  const MaxAttempts: int := 10

  /** The reference: starting at `port`, move to the next port while the
      address is in use and `port < initialPort + MaxAttempts`; the ports
      tried, and how it ends. */
  function Attempts(initialPort: int, port: int, listen: int -> ListenResult): (r: (StartOutcome, seq<int>))
    requires initialPort <= port <= initialPort + MaxAttempts
    decreases initialPort + MaxAttempts - port
    // the first port tried is `port`; a failure exits with status 1, a
    // success listens on a port of the window
    ensures |r.1| >= 1 && r.1[0] == port
    ensures r.0.Exited? ==> r.0.status == 1
    ensures r.0.Started? ==> port <= r.0.port <= initialPort + MaxAttempts
  {
    match listen(port)
    case Listening => (Started(port), [port])
    case AddressInUse =>
      if port < initialPort + MaxAttempts then
        var (outcome, rest) := Attempts(initialPort, port + 1, listen);
        (outcome, [port] + rest)
      else (Exited(1), [port])
    case ListenFailed(_) => (Exited(1), [port])
  }

  /** The ports tried by `Attempts` are consecutive from `port`, stay within
      the window, were all in use but the last, and the outcome is decided
      by the last. */
  lemma {:induction false} AttemptsShape(initialPort: int, port: int, listen: int -> ListenResult)
    requires initialPort <= port <= initialPort + MaxAttempts
    decreases initialPort + MaxAttempts - port
    ensures var (outcome, tried) := Attempts(initialPort, port, listen);
            && 1 <= |tried| <= initialPort + MaxAttempts - port + 1
            && (forall i :: 0 <= i < |tried| ==> tried[i] == port + i)
            && (forall i :: 0 <= i < |tried| - 1 ==> listen(tried[i]) == AddressInUse)
            && (outcome.Started? <==> listen(tried[|tried| - 1]) == Listening)
            && (outcome.Started? ==> outcome.port == tried[|tried| - 1])
            && (outcome.Exited? ==> outcome.status == 1)
  {
    if listen(port) == AddressInUse && port < initialPort + MaxAttempts {
      AttemptsShape(initialPort, port + 1, listen);
    }
  }

  /** One retry moves the next port tried to the list of ports already tried. */
  lemma AttemptsRetry(initialPort: int, port: int, listen: int -> ListenResult, tried: seq<int>)
    requires initialPort <= port < initialPort + MaxAttempts && listen(port) == AddressInUse
    ensures Attempts(initialPort, port, listen).0 == Attempts(initialPort, port + 1, listen).0
    ensures tried + Attempts(initialPort, port, listen).1 == (tried + [port]) + Attempts(initialPort, port + 1, listen).1
  {
    var rest := Attempts(initialPort, port + 1, listen).1;
    assert Attempts(initialPort, port, listen).1 == [port] + rest;
    assert tried + ([port] + rest) == (tried + [port]) + rest;
  }

  /** `startServer(initialPort)`: tries ports from `initialPort` upwards,
      at most `MaxAttempts + 1` of them, while the address is in use. */
  method StartServer(initialPort: int, listen: int -> ListenResult) returns (outcome: StartOutcome, tried: seq<int>)
    ensures (outcome, tried) == Attempts(initialPort, initialPort, listen)
    ensures 1 <= |tried| <= MaxAttempts + 1
    ensures forall p :: p in tried ==> initialPort <= p <= initialPort + MaxAttempts
    ensures outcome.Exited? ==> outcome.status == 1
  {
    AttemptsShape(initialPort, initialPort, listen);
    var port := initialPort;
    tried := [];
    while true
      invariant initialPort <= port <= initialPort + MaxAttempts
      invariant Attempts(initialPort, initialPort, listen).1 == tried + Attempts(initialPort, port, listen).1
      invariant Attempts(initialPort, initialPort, listen).0 == Attempts(initialPort, port, listen).0
      decreases initialPort + MaxAttempts - port
    {
      var result := listen(port);
      if result.Listening? {
        tried := tried + [port];
        outcome := Started(port);
        return;
      } else if result.AddressInUse? && port < initialPort + MaxAttempts {
        AttemptsRetry(initialPort, port, listen, tried);
        tried := tried + [port];
        port := port + 1;
      } else {
        tried := tried + [port];
        outcome := Exited(1);
        return;
      }
    }
  }

  // ---------------------------------------------------------------------
  // Options

  datatype Transport = Stdio | Http | Sse

  /** `--transport` (default `stdio`) must name one of the three
      transports; anything else exits with status 1. The environment's
      transport setting is consulted only for a falsy option, which the
      check has already excluded, so it never takes effect. */
  function SelectTransport(cliTransport: Option<string>, configured: string): (r: Result<Transport, int>)
    ensures r.Err? ==> r.error == 1
    ensures r.Ok? <==> cliTransport.GetOr("stdio") in {"stdio", "http", "sse"}
    ensures r == Ok(Stdio) <==> cliTransport.GetOr("stdio") == "stdio"
    ensures r == Ok(Http) <==> cliTransport.GetOr("stdio") == "http"
    ensures r == Ok(Sse) <==> cliTransport.GetOr("stdio") == "sse"
  {
    var t := cliTransport.GetOr("stdio");
    if t != "stdio" && t != "http" && t != "sse" then Err(1)
    else
      var chosen := if t != "" then t else configured;
      if chosen == "stdio" then Ok(Stdio) else if chosen == "http" then Ok(Http) else Ok(Sse)
  }

  /** The transport does not depend on the environment's setting. */
  lemma ConfiguredTransportUnused(cliTransport: Option<string>, c1: string, c2: string)
    ensures SelectTransport(cliTransport, c1) == SelectTransport(cliTransport, c2)
  {
  }

  /** The listening port: `--port` (default `"3000"`) parsed as a decimal
      integer when that gives a non-zero number, the configured port
      otherwise. */
  function ChoosePort(cliPort: Option<string>, configured: int): (r: int)
    ensures JsText.ParseInt(cliPort.GetOr("3000")).Some? && JsText.ParseInt(cliPort.GetOr("3000")).value != 0 ==>
              r == JsText.ParseInt(cliPort.GetOr("3000")).value
    ensures !(JsText.ParseInt(cliPort.GetOr("3000")).Some? && JsText.ParseInt(cliPort.GetOr("3000")).value != 0) ==>
              r == configured
  {
    match JsText.ParseInt(cliPort.GetOr("3000"))
    case None => configured
    case Some(p) => if p != 0 then p else configured
  }

  /** A port written in decimal is used as given, except 0, which falls
      back to the configured port. */
  lemma ChoosePortOfText(p: int, configured: int)
    ensures p != 0 ==> ChoosePort(Some(JsText.IntText(p)), configured) == p
    ensures ChoosePort(Some(JsText.IntText(0)), configured) == configured
  {
    JsText.ParseIntText(p);
    JsText.ParseIntText(0);
  }

  /** Without the option the port is 3000, whatever the configured port. */
  lemma DefaultPortIgnoresConfigured(configured: int)
    ensures ChoosePort(None, configured) == 3000
  {
    assert JsText.NatText(3) == "3";
    assert JsText.NatText(30) == "30";
    assert JsText.NatText(300) == "300";
    assert JsText.IntText(3000) == "3000";
    JsText.ParseIntText(3000);
  }

  /** `parseInt` reads the port after leading whitespace and an optional
      sign and ignores the rest, so `" 8080"`, `"+8080"` and `"8080abc"`
      all give 8080. A non-zero value, negative ones included, is used. */
  lemma ChoosePortLeadingNumber(w: string, g: string, d: string, rest: string, configured: int)
    requires JsText.AllWhitespace(w)
    requires g == "" || g == "+" || g == "-"
    requires |d| > 0 && JsText.AllDigits(d)
    requires |rest| == 0 || !JsText.IsDigit(rest[0])
    ensures var v := if g == "-" then -(JsText.DigitsValue(d) as int) else JsText.DigitsValue(d);
            ChoosePort(Some(w + g + d + rest), configured) == if v != 0 then v else configured
  {
    JsText.ParseIntDigitsPrefix(w, g, d, rest);
  }

  /** A `--port` value with no digit after its leading whitespace and
      optional sign, such as `""` or `"abc"`, falls back to the configured
      port. */
  lemma ChoosePortNotANumber(w: string, g: string, rest: string, configured: int)
    requires JsText.AllWhitespace(w)
    requires g == "" || g == "+" || g == "-"
    requires |rest| == 0 || !JsText.IsDigit(rest[0])
    requires g == "" && |rest| > 0 ==> !JsText.IsJsWhitespace(rest[0]) && rest[0] != '+' && rest[0] != '-'
    ensures ChoosePort(Some(w + g + rest), configured) == configured
  {
    JsText.ParseIntNoDigits(w, g, rest);
  }
}

=== FILE: js_text.dfy ===
/** The JavaScript string and number primitives the server relies on:
    `Array.prototype.join`, `String.prototype.trim`, `split(',')[0]`,
    `Array.prototype.slice(0, end)`, integer-to-string conversion and
    `parseInt(s, 10)`, and the truncation `slice` applies to a fractional
    end. Strings are sequences of Unicode scalar values; none of these
    operations depends on how a character is split into UTF-16 code units. */
module JsText {
  import opened Wrappers

  // ---------------------------------------------------------------------------
  // join

  /** `s.endsWith(suffix)`. */
  predicate EndsWith(s: string, suffix: string)
  {
    |suffix| <= |s| && s[|s| - |suffix|..] == suffix
  }

  /** `parts.join(sep)`: the parts with `sep` between consecutive ones. The
      text starts with the first part and ends with the last. */
  function Join(parts: seq<string>, sep: string): (r: string)
    ensures |parts| == 0 ==> r == ""
    ensures |parts| > 0 ==> parts[0] <= r && EndsWith(r, parts[|parts| - 1])
  {
    if |parts| == 0 then ""
    else if |parts| == 1 then parts[0]
    else
      var rest := Join(parts[1..], sep);
      assert parts[1..][|parts[1..]| - 1] == parts[|parts| - 1];
      EndsWithExtended(parts[0] + sep, rest, parts[|parts| - 1]);
      parts[0] + sep + rest
  }

  /** A suffix of `b` is a suffix of `a + b`. */
  lemma EndsWithExtended(a: string, b: string, suffix: string)
    requires EndsWith(b, suffix)
    ensures EndsWith(a + b, suffix)
  {
    assert (a + b)[|a + b| - |suffix|..] == b[|b| - |suffix|..];
  }

  /** Two parts are joined by one separator. */
  lemma JoinPair(x: string, y: string, sep: string)
    ensures Join([x, y], sep) == x + sep + y
  {
    assert [x, y][1..] == [y];
  }

  /** Appending one part adds exactly one separator, before the new part. */
  lemma {:induction false} JoinSnoc(parts: seq<string>, p: string, sep: string)
    requires |parts| > 0
    ensures Join(parts + [p], sep) == Join(parts, sep) + sep + p
  {
    if |parts| == 1 {
      assert (parts + [p])[1..] == [p];
    } else {
      assert (parts + [p])[1..] == parts[1..] + [p];
      JoinSnoc(parts[1..], p, sep);
      assert Join(parts + [p], sep) == parts[0] + sep + Join(parts[1..] + [p], sep);
      assert Join(parts, sep) == parts[0] + sep + Join(parts[1..], sep);
      RegroupSnoc(parts[0], sep, Join(parts[1..], sep), p);
    }
  }

  lemma RegroupSnoc(a: string, sep: string, b: string, p: string)
    ensures a + sep + (b + sep + p) == a + sep + b + sep + p
  {
  }

  // ---------------------------------------------------------------------------
  // whitespace and trim

  /** The characters `String.prototype.trim` and `parseInt` skip: the
      ECMAScript WhiteSpace and LineTerminator code points. */
  predicate IsJsWhitespace(c: char)
  {
    || c == '\t' || c == '\n' || c == '\U{B}' || c == '\U{C}' || c == '\r'
    || c == ' ' || c == '\U{A0}' || c == '\U{1680}'
    || ('\U{2000}' <= c <= '\U{200A}')
    || c == '\U{2028}' || c == '\U{2029}' || c == '\U{202F}' || c == '\U{205F}'
    || c == '\U{3000}' || c == '\U{FEFF}'
  }

  predicate AllWhitespace(s: string)
  {
    forall k :: 0 <= k < |s| ==> IsJsWhitespace(s[k])
  }

  /** `s` with its leading whitespace removed. */
  function TrimStart(s: string): (r: string)
    ensures |r| <= |s| && r == s[|s| - |r|..]
    ensures AllWhitespace(s[..|s| - |r|])
    ensures |r| > 0 ==> !IsJsWhitespace(r[0])
  {
    if |s| > 0 && IsJsWhitespace(s[0]) then TrimStart(s[1..]) else s
  }

  /** `s` with its trailing whitespace removed. */
  function TrimEnd(s: string): (r: string)
    ensures |r| <= |s| && r == s[..|r|]
    ensures AllWhitespace(s[|r|..])
    ensures |r| > 0 ==> !IsJsWhitespace(r[|r| - 1])
  {
    if |s| > 0 && IsJsWhitespace(s[|s| - 1]) then TrimEnd(s[..|s| - 1]) else s
  }

  /** `r` occurs in `s` at offset `i`. */
  predicate InfixAt(r: string, s: string, i: int)
  {
    0 <= i && i + |r| <= |s| && r == s[i..i + |r|]
  }

  /** `s.trim()`: the unique infix of `s` that neither starts nor ends with
      whitespace and is surrounded by whitespace only. */
  function Trim(s: string): (r: string)
    ensures exists i :: InfixAt(r, s, i) && AllWhitespace(s[..i]) && AllWhitespace(s[i + |r|..])
    ensures |r| > 0 ==> !IsJsWhitespace(r[0]) && !IsJsWhitespace(r[|r| - 1])
  {
    var t := TrimStart(s);
    var r := TrimEnd(t);
    TrimSurroundings(s, t, r);
    r
  }

  /** Where the two trims leave the trimmed text inside `s`. */
  lemma TrimSurroundings(s: string, t: string, r: string)
    requires |t| <= |s| && t == s[|s| - |t|..] && AllWhitespace(s[..|s| - |t|])
    requires |r| <= |t| && r == t[..|r|] && AllWhitespace(t[|r|..])
    requires |t| > 0 ==> !IsJsWhitespace(t[0])
    requires |r| > 0 ==> !IsJsWhitespace(r[|r| - 1])
    ensures InfixAt(r, s, |s| - |t|) && AllWhitespace(s[..|s| - |t|]) && AllWhitespace(s[|s| - |t| + |r|..])
    ensures |r| > 0 ==> !IsJsWhitespace(r[0]) && !IsJsWhitespace(r[|r| - 1])
  {
    assert |r| > 0 ==> r[0] == t[0];
    var i := |s| - |t|;
    assert s[i..i + |r|] == t[..|r|];
    assert s[i + |r|..] == t[|r|..];
  }

  // ---------------------------------------------------------------------------
  // split(',')[0]

  /** `s.split(',')[0]`: the text before the first comma, or all of `s`. */
  function BeforeFirstComma(s: string): (r: string)
    ensures r <= s
    ensures ',' !in r
    ensures |r| < |s| ==> s[|r|] == ','
  {
    if |s| == 0 || s[0] == ',' then "" else [s[0]] + BeforeFirstComma(s[1..])
  }

  // ---------------------------------------------------------------------------
  // slice(0, end)

  /** The length `xs.slice(0, end)` keeps: a negative `end` counts back from
      the end of the array. */
  function SliceEnd(len: nat, end: int): (n: nat)
    ensures n <= len
    ensures end >= 0 ==> n == if end < len then end else len
    ensures end < 0 ==> n == if len + end > 0 then len + end else 0
  {
    if end >= 0 then (if end < len then end else len)
    else (if len + end > 0 then len + end else 0)
  }

  /** `xs.slice(0, end)`. */
  function SliceTo<T>(xs: seq<T>, end: int): (r: seq<T>)
    ensures r == xs[..SliceEnd(|xs|, end)]
  {
    xs[..SliceEnd(|xs|, end)]
  }

  /** The integer part of a number, truncated toward zero, which is where
      `slice` cuts for a fractional end (ToIntegerOrInfinity). */
  function ToInteger(x: real): (n: int)
    ensures x >= 0.0 ==> 0 <= n && n as real <= x < n as real + 1.0
    ensures x < 0.0 ==> n <= 0 && n as real - 1.0 < x <= n as real
  {
    if x >= 0.0 then x.Floor else -((-x).Floor)
  }

  // ---------------------------------------------------------------------------
  // integers as decimal text, and parseInt

  predicate IsDigit(c: char)
  {
    '0' <= c <= '9'
  }

  function DigitChar(d: nat): (c: char)
    requires d < 10
    ensures IsDigit(c)
  {
    ['0', '1', '2', '3', '4', '5', '6', '7', '8', '9'][d]
  }

  function DigitValue(c: char): (d: nat)
    requires IsDigit(c)
    ensures d < 10
  {
    (c as int - '0' as int) as nat
  }

  predicate AllDigits(s: string)
  {
    forall k :: 0 <= k < |s| ==> IsDigit(s[k])
  }

  /** A natural number written in decimal, without leading zeros. */
  function NatText(n: nat): (s: string)
    ensures |s| > 0 && AllDigits(s)
    ensures |s| > 1 ==> s[0] != '0'
  {
    if n < 10 then [DigitChar(n)] else NatText(n / 10) + [DigitChar(n % 10)]
  }

  /** `String(n)` (and `${n}`) for an integer-valued number. */
  function IntText(n: int): (s: string)
    ensures |s| > 0
    ensures n < 0 <==> s[0] == '-'
  {
    if n < 0 then "-" + NatText(-n) else NatText(n)
  }

  /** The number a string of decimal digits denotes. */
  function DigitsValue(s: string): nat
    requires AllDigits(s)
  {
    if |s| == 0 then 0 else DigitsValue(s[..|s| - 1]) * 10 + DigitValue(s[|s| - 1])
  }

  /** The longest prefix of `s` made of decimal digits. */
  function LeadingDigits(s: string): (r: string)
    ensures r <= s && AllDigits(r)
    ensures |r| < |s| ==> !IsDigit(s[|r|])
  {
    if |s| > 0 && IsDigit(s[0]) then [s[0]] + LeadingDigits(s[1..]) else ""
  }

  /** `parseInt(s, 10)`: skip leading whitespace, read an optional sign and
      the longest run of digits; `None` stands for `NaN` (no digit at all).
      Trailing text after the digits is ignored. */
  function ParseInt(s: string): Option<int>
  {
    var t := TrimStart(s);
    var k := SignLength(t);
    var digits := LeadingDigits(t[k..]);
    var v: int := if |digits| == 0 then 0 else DigitsValue(digits);
    if |digits| == 0 then None
    else if k == 1 && t[0] == '-' then Some(-v)
    else Some(v)
  }

  /** Blank text is `NaN`. */
  lemma ParseIntBlank(s: string)
    requires AllWhitespace(s)
    ensures ParseInt(s).None?
  {
    BlankTrimsToEmpty(s);
  }

  /** Text starting with a digit is a non-negative number. */
  lemma ParseIntLeadingDigit(s: string)
    requires |s| > 0 && IsDigit(s[0])
    ensures ParseInt(s).Some? && ParseInt(s).value >= 0
  {
    assert !IsJsWhitespace(s[0]);
    assert TrimStart(s) == s;
    assert SignLength(s) == 0;
  }

  /** A negative number needs a minus sign before its digits. */
  lemma ParseIntNegative(s: string)
    requires ParseInt(s).Some? && ParseInt(s).value < 0
    ensures |TrimStart(s)| > 0 && TrimStart(s)[0] == '-'
  {
  }

  /** `parseInt` reads past leading whitespace and an optional sign, takes
      the longest run of digits and ignores whatever follows it. */
  lemma ParseIntDigitsPrefix(w: string, g: string, d: string, rest: string)
    requires AllWhitespace(w)
    requires g == "" || g == "+" || g == "-"
    requires |d| > 0 && AllDigits(d)
    requires |rest| == 0 || !IsDigit(rest[0])
    ensures ParseInt(w + g + d + rest) == Some(if g == "-" then -(DigitsValue(d) as int) else DigitsValue(d))
  {
    var x := g + (d + rest);
    RegroupFour(w, g, d, rest);
    SignThenText(g, d + rest);
    TrimStartAfterBlank(w, x);
    LeadingDigitsBeforeRest(d, rest);
    ParseIntOfParts(w + x, x, |g|, d);
  }

  /** The sign and what follows it, seen through `SignLength`. */
  lemma SignThenText(g: string, y: string)
    requires g == "" || g == "+" || g == "-"
    requires |y| > 0 && ('0' <= y[0] <= '9')
    ensures SignLength(g + y) == |g| && (g + y)[|g|..] == y
    ensures !IsJsWhitespace((g + y)[0])
    ensures |g| == 1 && (g + y)[0] == '-' <==> g == "-"
  {
  }

  lemma RegroupThree(a: string, b: string, c: string)
    ensures a + b + c == a + (b + c)
  {
  }

  lemma RegroupFour(a: string, b: string, c: string, e: string)
    ensures a + b + c + e == a + (b + (c + e))
  {
  }

  lemma ParseIntOfParts(s: string, t: string, k: nat, digits: string)
    requires TrimStart(s) == t && SignLength(t) == k
    requires LeadingDigits(t[k..]) == digits && |digits| > 0
    ensures ParseInt(s) == Some(if k == 1 && t[0] == '-' then -(DigitsValue(digits) as int) else DigitsValue(digits))
  {
  }

  /** Without a digit after the leading whitespace and an optional sign,
      `parseInt` gives `NaN`. */
  lemma ParseIntNoDigits(w: string, g: string, rest: string)
    requires AllWhitespace(w)
    requires g == "" || g == "+" || g == "-"
    requires |rest| == 0 || !IsDigit(rest[0])
    requires g == "" && |rest| > 0 ==> !IsJsWhitespace(rest[0]) && rest[0] != '+' && rest[0] != '-'
    ensures ParseInt(w + g + rest).None?
  {
    RegroupThree(w, g, rest);
    SignThenNonDigit(g, rest);
    TrimStartAfterBlank(w, g + rest);
    assert LeadingDigits(rest) == "";
    ParseIntNoneOfParts(w + (g + rest), g + rest, |g|);
  }

  lemma SignThenNonDigit(g: string, y: string)
    requires g == "" || g == "+" || g == "-"
    requires |y| == 0 || !IsDigit(y[0])
    requires g == "" && |y| > 0 ==> !IsJsWhitespace(y[0]) && y[0] != '+' && y[0] != '-'
    ensures SignLength(g + y) == |g| && (g + y)[|g|..] == y
    ensures |g + y| == 0 || !IsJsWhitespace((g + y)[0])
  {
  }

  lemma ParseIntNoneOfParts(s: string, t: string, k: nat)
    requires TrimStart(s) == t && SignLength(t) == k
    requires LeadingDigits(t[k..]) == ""
    ensures ParseInt(s).None?
  {
  }

  lemma {:induction false} TrimStartAfterBlank(w: string, x: string)
    requires AllWhitespace(w)
    requires |x| == 0 || !IsJsWhitespace(x[0])
    ensures TrimStart(w + x) == x
  {
    if |w| > 0 {
      assert (w + x)[0] == w[0];
      assert (w + x)[1..] == w[1..] + x;
      TrimStartAfterBlank(w[1..], x);
    } else {
      assert w + x == x;
    }
  }

  lemma {:induction false} LeadingDigitsBeforeRest(d: string, rest: string)
    requires AllDigits(d)
    requires |rest| == 0 || !IsDigit(rest[0])
    ensures LeadingDigits(d + rest) == d
  {
    if |d| > 0 {
      assert (d + rest)[1..] == d[1..] + rest;
      LeadingDigitsBeforeRest(d[1..], rest);
    } else {
      assert d + rest == rest;
    }
  }

  /** Whitespace-only text trims to nothing. */
  lemma {:induction false} BlankTrimsToEmpty(s: string)
    requires AllWhitespace(s)
    ensures TrimStart(s) == ""
  {
    if |s| > 0 {
      BlankTrimsToEmpty(s[1..]);
    }
  }

  /** 1 when the text starts with a sign character, else 0. */
  function SignLength(t: string): (k: nat)
    ensures k <= |t|
  {
    if |t| > 0 && (t[0] == '+' || t[0] == '-') then 1 else 0
  }

  lemma {:induction false} DigitsValueOfNatText(n: nat)
    ensures DigitsValue(NatText(n)) == n
  {
    if n >= 10 {
      var s := NatText(n);
      assert s[..|s| - 1] == NatText(n / 10);
      DigitsValueOfNatText(n / 10);
      assert DigitValue(DigitChar(n % 10)) == n % 10;
    } else {
      assert DigitValue(DigitChar(n)) == n;
    }
  }

  lemma {:induction false} LeadingDigitsOfDigits(s: string)
    requires AllDigits(s)
    ensures LeadingDigits(s) == s
  {
    if |s| > 0 {
      LeadingDigitsOfDigits(s[1..]);
    }
  }

  /** Writing an integer and parsing it back gives the integer: `parseInt`
      inverts `String` on integers. */
  lemma ParseIntText(n: int)
    ensures ParseInt(IntText(n)) == Some(n)
  {
    var s := IntText(n);
    assert !IsJsWhitespace(s[0]);
    assert TrimStart(s) == s;
    var m: nat := if n < 0 then -n else n;
    var k := SignLength(s);
    assert s[k..] == NatText(m);
    LeadingDigitsOfDigits(NatText(m));
    DigitsValueOfNatText(m);
  }
}

=== FILE: ranking.dfy ===
/** The re-ranking step of retrieval: `records.sort((a, b) => b.score - a.score)`
    (a stable sort, highest score first) followed by truncation to `topK`.
    Stability is stated without indices: for every score value, the records
    carrying that score appear in the same order before and after sorting. */
module Ranking {
  import opened Types
  import JsText

  predicate SortedByScore(rs: seq<RetrievedRecord>)
  {
    forall i, j :: 0 <= i < j < |rs| ==> rs[i].score >= rs[j].score
  }

  /** The records with score `v`, in their order in `rs`. */
  function WithScore(rs: seq<RetrievedRecord>, v: real): seq<RetrievedRecord>
  {
    if |rs| == 0 then []
    else (if rs[0].score == v then [rs[0]] else []) + WithScore(rs[1..], v)
  }

  /** `b` keeps, for every score, the relative order the records had in `a`. */
  ghost predicate SameOrderPerScore(a: seq<RetrievedRecord>, b: seq<RetrievedRecord>)
  {
    forall v :: WithScore(a, v) == WithScore(b, v)
  }

  lemma {:induction false} WithScoreAppend(a: seq<RetrievedRecord>, b: seq<RetrievedRecord>, v: real)
    ensures WithScore(a + b, v) == WithScore(a, v) + WithScore(b, v)
  {
    if |a| > 0 {
      assert (a + b)[1..] == a[1..] + b;
      WithScoreAppend(a[1..], b, v);
    } else {
      assert a + b == b;
    }
  }

  /** Inserts `x` after every record that scores strictly higher and before
      the first one that does not, so `x` stays ahead of its equals. */
  function Insert(x: RetrievedRecord, rs: seq<RetrievedRecord>): (r: seq<RetrievedRecord>)
    requires SortedByScore(rs)
    ensures SortedByScore(r)
    ensures multiset(r) == multiset(rs) + multiset{x}
    ensures |r| > 0 && (r[0] == x || (|rs| > 0 && r[0] == rs[0]))
    ensures SameOrderPerScore(r, [x] + rs)
  {
    if |rs| == 0 || x.score >= rs[0].score then [x] + rs
    else
      var rest := Insert(x, rs[1..]);
      assert rs == [rs[0]] + rs[1..];
      InsertStable(x, rs, rest);
      [rs[0]] + rest
  }

  lemma InsertStable(x: RetrievedRecord, rs: seq<RetrievedRecord>, rest: seq<RetrievedRecord>)
    requires |rs| > 0 && rs[0].score > x.score
    requires SameOrderPerScore(rest, [x] + rs[1..])
    ensures SameOrderPerScore([rs[0]] + rest, [x] + rs)
  {
    forall v ensures WithScore([rs[0]] + rest, v) == WithScore([x] + rs, v) {
      WithScoreAppend([rs[0]], rest, v);
      WithScoreAppend([x], rs[1..], v);
      WithScoreAppend([x], rs, v);
      assert rs == [rs[0]] + rs[1..];
      WithScoreAppend([rs[0]], rs[1..], v);
    }
  }

  /** The records, highest score first, equal scores in their original order
      (an insertion sort, which is stable). */
  function SortByScore(rs: seq<RetrievedRecord>): (r: seq<RetrievedRecord>)
    ensures SortedByScore(r)
    ensures multiset(r) == multiset(rs)
    ensures SameOrderPerScore(r, rs)
  {
    if |rs| == 0 then []
    else
      var sorted := SortByScore(rs[1..]);
      assert rs == [rs[0]] + rs[1..];
      ConsKeepsOrder(rs[0], sorted, rs[1..]);
      Insert(rs[0], sorted)
  }

  lemma ConsKeepsOrder(x: RetrievedRecord, a: seq<RetrievedRecord>, b: seq<RetrievedRecord>)
    requires SameOrderPerScore(a, b)
    ensures SameOrderPerScore([x] + a, [x] + b)
  {
    forall v ensures WithScore([x] + a, v) == WithScore([x] + b, v) {
      WithScoreAppend([x], a, v);
      WithScoreAppend([x], b, v);
    }
  }

  /** A stable descending sort has exactly one possible answer: any sorted
      sequence that keeps the per-score order of the input is the one
      `SortByScore` returns. */
  lemma {:induction false} StableSortUnique(a: seq<RetrievedRecord>, b: seq<RetrievedRecord>)
    requires SortedByScore(a) && SortedByScore(b)
    requires SameOrderPerScore(a, b)
    ensures a == b
  {
    if |a| > 0 {
      WithScoreHead(a);
    }
    if |b| > 0 {
      WithScoreHead(b);
    }
    if |a| > 0 && |b| > 0 {
      HeadScoreIsMax(a, b);
      HeadScoreIsMax(b, a);
      var m := a[0].score;
      assert b[0].score == m;
      assert WithScore(a, m)[0] == a[0];
      assert WithScore(b, m)[0] == b[0];
      assert WithScore(a, m) == WithScore(b, m);
      assert a[0] == b[0];
      forall v ensures WithScore(a[1..], v) == WithScore(b[1..], v) {
        var h: seq<RetrievedRecord> := if a[0].score == v then [a[0]] else [];
        assert WithScore(a, v) == h + WithScore(a[1..], v);
        assert WithScore(b, v) == h + WithScore(b[1..], v);
        assert WithScore(a, v) == WithScore(b, v);
        assert WithScore(a[1..], v) == (h + WithScore(a[1..], v))[|h|..];
        assert WithScore(b[1..], v) == (h + WithScore(b[1..], v))[|h|..];
      }
      StableSortUnique(a[1..], b[1..]);
      assert a == [a[0]] + a[1..];
      assert b == [b[0]] + b[1..];
    }
  }

  lemma WithScoreHead(rs: seq<RetrievedRecord>)
    requires |rs| > 0
    ensures WithScore(rs, rs[0].score) != []
  {
  }

  /** In a sorted sequence the head carries the highest score of any record
      of a per-score-equal sequence. */
  lemma HeadScoreIsMax(a: seq<RetrievedRecord>, b: seq<RetrievedRecord>)
    requires SortedByScore(a) && |a| > 0 && |b| > 0
    requires SameOrderPerScore(a, b)
    ensures a[0].score >= b[0].score
  {
    var v := b[0].score;
    assert WithScore(b, v) != [];
    WithScoreMember(a, v);
  }

  lemma {:induction false} WithScoreMember(rs: seq<RetrievedRecord>, v: real)
    requires WithScore(rs, v) != []
    ensures exists i :: 0 <= i < |rs| && rs[i].score == v
  {
    if rs[0].score != v {
      WithScoreMember(rs[1..], v);
      var i :| 0 <= i < |rs[1..]| && rs[1..][i].score == v;
      assert rs[i + 1].score == v;
    }
  }

  lemma {:induction false} WithScorePrefix(rs: seq<RetrievedRecord>, n: nat, v: real)
    requires n <= |rs|
    ensures WithScore(rs[..n], v) <= WithScore(rs, v)
  {
    assert rs == rs[..n] + rs[n..];
    WithScoreAppend(rs[..n], rs[n..], v);
  }

  /** `if (records.length > topK) records = records.slice(0, topK)`. */
  function Truncate(rs: seq<RetrievedRecord>, topK: int): (r: seq<RetrievedRecord>)
    ensures r <= rs
    ensures |rs| <= topK ==> r == rs
    ensures 0 <= topK < |rs| ==> |r| == topK
    // a negative topK is always exceeded, and the slice drops that many from the end
    ensures topK < 0 ==> |r| == if |rs| + topK > 0 then |rs| + topK else 0
  {
    if |rs| > topK then JsText.SliceTo(rs, topK) else rs
  }

  /** Sort then truncate. For a non-negative `topK` the answer has
      `min(|rs|, topK)` records, is ordered by score with ties in input order,
      and no record left out scores higher than any record kept. */
  function Rank(rs: seq<RetrievedRecord>, topK: int): (r: seq<RetrievedRecord>)
    ensures SortedByScore(r)
    ensures multiset(r) <= multiset(rs)
    ensures topK >= 0 ==> |r| == if |rs| < topK then |rs| else topK
    ensures topK < 0 ==> |r| == if |rs| + topK > 0 then |rs| + topK else 0
    ensures forall x, i :: x in multiset(rs) - multiset(r) && 0 <= i < |r| ==> r[i].score >= x.score
    ensures forall v :: WithScore(r, v) <= WithScore(rs, v)
  {
    var sorted := SortByScore(rs);
    var r := Truncate(sorted, topK);
    TruncatedPrefix(rs, sorted, |r|);
    r
  }

  /** What keeping the first `n` records of the sorted answer preserves. */
  lemma TruncatedPrefix(rs: seq<RetrievedRecord>, sorted: seq<RetrievedRecord>, n: nat)
    requires n <= |sorted|
    requires SortedByScore(sorted) && multiset(sorted) == multiset(rs) && SameOrderPerScore(sorted, rs)
    ensures multiset(sorted[..n]) <= multiset(rs)
    ensures forall x, i :: x in multiset(rs) - multiset(sorted[..n]) && 0 <= i < n ==> sorted[..n][i].score >= x.score
    ensures forall v :: WithScore(sorted[..n], v) <= WithScore(rs, v)
  {
    DroppedAreTail(rs, sorted, n);
    TruncatedKeepsBest(sorted, n);
    forall v ensures WithScore(sorted[..n], v) <= WithScore(rs, v) {
      WithScorePrefix(sorted, n, v);
    }
  }

  /** The records a truncation drops are exactly those of the tail. */
  lemma DroppedAreTail(rs: seq<RetrievedRecord>, sorted: seq<RetrievedRecord>, n: nat)
    requires n <= |sorted| && multiset(sorted) == multiset(rs)
    ensures multiset(sorted[..n]) <= multiset(rs)
    ensures multiset(rs) - multiset(sorted[..n]) == multiset(sorted[n..])
  {
    assert sorted == sorted[..n] + sorted[n..];
  }

  /** In a sorted sequence no record of the tail outscores one of the prefix. */
  lemma TruncatedKeepsBest(sorted: seq<RetrievedRecord>, n: nat)
    requires n <= |sorted| && SortedByScore(sorted)
    ensures forall x, i :: x in multiset(sorted[n..]) && 0 <= i < n ==> sorted[..n][i].score >= x.score
  {
    forall x, i | x in multiset(sorted[n..]) && 0 <= i < n ensures sorted[..n][i].score >= x.score {
      assert x in sorted[n..];
      var j :| 0 <= j < |sorted[n..]| && sorted[n..][j] == x;
      assert sorted[n + j] == x;
    }
  }
}

=== FILE: resolve_knowledge_ids.dfy ===
/** The `resolve-knowledge-ids` tool handler (src/tools/resolve-knowledge-ids.ts):
    lists every knowledge base (no keyword, so the query plays no part),
    keeps the first `limit` descriptors and renders them under a fixed
    header as labelled blocks separated by rules. */
module ResolveKnowledgeIds {
  import opened Wrappers
  import opened Types
  import JsText
  import DifyRepository
  import DifyService

  const DefaultLimit: real := 10.0

  /** The fixed introduction, ending with a rule. */
  const Header := "可用知识库（顶部匹配）:\n\n"
    + "每个结果包括:\n"
    + "- 知识库ID: 系统兼容标识符\n"
    + "- 名称: 知识库名称\n"
    + "- 描述: 简短摘要\n"
    + "- 文档数量: 可用文档数量\n"
    + "- 字数: 内容规模指标\n\n"
    + "为获得最佳结果，请基于名称匹配、字数、文档覆盖率和与您使用场景的相关性选择知识库。\n\n"
    + "----------\n\n"

  /** The rule between two consecutive blocks. */
  const BlockSeparator := "----------\n"

  /** What `knowledgeIds.map` throws when the listing body had no `data`. */
  const NoListingMessage := "Cannot read properties of undefined (reading 'map')"

  /** The five labelled lines describing one knowledge base. */
  function Block(m: KnowledgeName): string
  {
    "- 标题: " + m.name + "\n"
      + "- 知识库ID: " + m.id + "\n"
      + "- 描述: " + m.description + "\n"
      + "- 文档数量: " + JsText.IntText(m.documentCount) + "\n"
      + "- 字数: " + JsText.IntText(m.wordCount) + "\n"
  }

  /** A block opens with the title line and closes with the word count line. */
  lemma BlockShape(m: KnowledgeName)
    ensures "- 标题: " + m.name + "\n" <= Block(m)
    ensures JsText.EndsWith(Block(m), "- 字数: " + JsText.IntText(m.wordCount) + "\n")
  {
    var last := "- 字数: " + JsText.IntText(m.wordCount) + "\n";
    var b := Block(m);
    assert b[|b| - |last|..] == last;
  }

  function Blocks(ms: seq<KnowledgeName>): (bs: seq<string>)
    ensures |bs| == |ms|
    ensures forall i :: 0 <= i < |ms| ==> bs[i] == Block(ms[i])
  {
    if |ms| == 0 then [] else [Block(ms[0])] + Blocks(ms[1..])
  }

  /** The reply text: the header, then the blocks with a rule between
      consecutive ones and none after the last. */
  function ResolveText(ms: seq<KnowledgeName>): (t: string)
    ensures Header <= t
    ensures |ms| == 0 ==> t == Header
    ensures |ms| > 0 ==> JsText.EndsWith(t, Block(ms[|ms| - 1]))
  {
    var joined := JsText.Join(Blocks(ms), BlockSeparator);
    assert |ms| > 0 ==> JsText.EndsWith(Header + joined, Block(ms[|ms| - 1])) by {
      if |ms| > 0 {
        JsText.EndsWithExtended(Header, joined, Block(ms[|ms| - 1]));
      }
    }
    Header + joined
  }

  /** The blocks of the first `i` descriptors, joined by rules. */
  function JoinedPrefix(ms: seq<KnowledgeName>, i: nat): string
    requires i <= |ms|
  {
    JsText.Join(Blocks(ms[..i]), BlockSeparator)
  }

  /** One more descriptor appends a rule (unless it is the first) and its block. */
  lemma JoinedPrefixStep(ms: seq<KnowledgeName>, i: nat)
    requires i < |ms|
    ensures JoinedPrefix(ms, i + 1) == JoinedPrefix(ms, i) + (if i > 0 then BlockSeparator else "") + Block(ms[i])
  {
    assert ms[..i + 1] == ms[..i] + [ms[i]];
    assert Blocks(ms[..i + 1]) == Blocks(ms[..i]) + [Block(ms[i])];
    if i > 0 {
      JsText.JoinSnoc(Blocks(ms[..i]), Block(ms[i]), BlockSeparator);
    } else {
      assert Blocks(ms[..1]) == [Block(ms[0])];
    }
  }

  /** The reply text built the way the handler builds it: the header, then
      each block, with a rule after every block but the last. It is
      `ResolveText`. */
  method RenderMatches(ms: seq<KnowledgeName>) returns (content: string)
    ensures content == ResolveText(ms)
  {
    content := AppendBlocks(Header, ms);
    ResolveTextOfPrefix(ms);
  }

  /** The handler's loop: appends each block to `start`, and a rule after
      every block but the last. */
  method AppendBlocks(start: string, ms: seq<KnowledgeName>) returns (content: string)
    ensures content == start + JoinedPrefix(ms, |ms|)
  {
    content := start;
    var index := 0;
    while index < |ms|
      invariant 0 <= index <= |ms|
      invariant content == start + JoinedPrefix(ms, index) + Pending(ms, index)
    {
      JoinedPrefixStep(ms, index);
      ghost var before := JoinedPrefix(ms, index);
      var block := Block(ms[index]);
      assert Pending(ms, index) == (if index > 0 then BlockSeparator else "");
      content := content + block;
      Regroup(start, before, Pending(ms, index), block, JoinedPrefix(ms, index + 1));
      if index < |ms| - 1 {
        content := content + BlockSeparator;
      }
      index := index + 1;
    }
    assert content == start + JoinedPrefix(ms, |ms|) + "";
  }

  /** The reply text is the header followed by the joined blocks of all
      descriptors. */
  lemma ResolveTextOfPrefix(ms: seq<KnowledgeName>)
    ensures ResolveText(ms) == Header + JoinedPrefix(ms, |ms|)
  {
    assert ms[..|ms|] == ms;
  }

  /** Appending to a text with a fixed prefix only extends what follows it. */
  lemma Regroup(prefix: string, a: string, b: string, c: string, joined: string)
    requires joined == a + b + c
    ensures prefix + a + b + c == prefix + joined
  {
  }

  /** The rule written after the `i`-th block when more blocks follow. */
  function Pending(ms: seq<KnowledgeName>, i: nat): string
  {
    if 0 < i < |ms| then BlockSeparator else ""
  }

  /** `handler({query, limit})`: the reply, or the thrown value. */
  function Handle(reg: DifyService.Registry, query: Option<string>, limit: Option<real>,
                  list: seq<(string, string)> -> DifyRepository.ListOutcome): (r: Result<seq<Content>, Thrown>)
    ensures reg.repository.None? ==> r == Err(ErrorObject(DifyService.NotInitializedMessage, None))
    ensures reg.repository.Some? ==>
              match list([])
              case ListFailed(e) => r == Err(e)
              case Listed(None) => r == Err(ErrorObject(NoListingMessage, None))
              case Listed(Some(ds)) =>
                var shown := JsText.SliceTo(DifyRepository.ToKnowledgeNames(ds), JsText.ToInteger(limit.GetOr(DefaultLimit)));
                && r == Ok([Text(ResolveText(shown))])
                && |shown| == JsText.SliceEnd(|ds|, JsText.ToInteger(limit.GetOr(DefaultLimit)))
  {
    match DifyService.GetRepository(reg)
    case Err(e) => Err(e)
    case Ok(repo) =>
      match DifyRepository.GetKnowledgeIds(repo, None, list)
      case Err(e) => Err(e)
      case Ok(None) => Err(ErrorObject(NoListingMessage, None))
      case Ok(Some(names)) =>
        var shown := JsText.SliceTo(names, JsText.ToInteger(limit.GetOr(DefaultLimit)));
        Ok([Text(ResolveText(shown))])
  }

  /** The query does not influence the reply. */
  lemma QueryIgnored(reg: DifyService.Registry, q1: Option<string>, q2: Option<string>, limit: Option<real>,
                     list: seq<(string, string)> -> DifyRepository.ListOutcome)
    ensures Handle(reg, q1, limit, list) == Handle(reg, q2, limit, list)
  {
  }

  /** With a non-negative limit (10 when omitted) the reply shows the first
      `min(limit, n)` descriptors of the listing, a fractional limit rounded
      down, in listing order and with their fields as listed. */
  lemma ShowsFirstLimit(reg: DifyService.Registry, query: Option<string>, limit: Option<real>,
                        list: seq<(string, string)> -> DifyRepository.ListOutcome)
    requires reg.repository.Some? && list([]).Listed? && list([]).data.Some?
    requires limit.GetOr(DefaultLimit) >= 0.0
    ensures var ds := list([]).data.value;
            var n := limit.GetOr(DefaultLimit).Floor;
            var k := if |ds| < n then |ds| else n;
            Handle(reg, query, limit, list)
              == Ok([Text(ResolveText(seq(k, i requires 0 <= i < k => DifyRepository.ToKnowledgeName(ds[i]))))])
  {
    var ds := list([]).data.value;
    var n := JsText.ToInteger(limit.GetOr(DefaultLimit));
    var k := if |ds| < n then |ds| else n;
    var names := DifyRepository.ToKnowledgeNames(ds);
    assert JsText.SliceTo(names, n) == seq(k, i requires 0 <= i < k => DifyRepository.ToKnowledgeName(ds[i]));
  }

  /** A fractional limit shows as many descriptors as its integer part. */
  lemma FractionalLimitTruncates(reg: DifyService.Registry, query: Option<string>,
                                 list: seq<(string, string)> -> DifyRepository.ListOutcome)
    ensures Handle(reg, query, Some(2.5), list) == Handle(reg, query, Some(2.0), list)
    ensures Handle(reg, query, Some(-0.5), list) == Handle(reg, query, Some(0.0), list)
  {
    assert JsText.ToInteger(2.5) == 2 == JsText.ToInteger(2.0);
    assert JsText.ToInteger(-0.5) == 0 == JsText.ToInteger(0.0);
  }
}

=== FILE: types.dfy ===
/** The record shapes of the upstream retrieval API and of the tool layer:
    dataset descriptors, retrieved records, responses, errors and tool
    content items. */
module Types {
  import opened Wrappers

  /** Connection settings of one repository: where the API lives and the
      bearer credential. */
  datatype Config = Config(baseUrl: string, apiKey: string)

  /** The parts of a retrieved passage the server reads; the upstream
      segment carries many more fields, which are passed through untouched. */
  datatype Segment = Segment(id: string, documentId: string, content: string)

  /** `tsne_position`: absent, `null`, or a point. */
  datatype Position = Undefined | Null | Point(x: real, y: real)

  /** One matched passage and its upstream relevance score (higher is better). */
  datatype RetrievedRecord = RetrievedRecord(segment: Segment, score: real, tsnePosition: Position)

  /** The merged answer to one retrieval query. */
  datatype RetrieveResponse = RetrieveResponse(query: string, records: seq<RetrievedRecord>)

  /** A knowledge-base descriptor as the listing returns it after defaulting. */
  datatype KnowledgeName = KnowledgeName(
    id: string, name: string, description: string, documentCount: int, wordCount: int)

  /** The plain object the HTTP client's error interceptor throws. */
  datatype DifyError = DifyError(status: int, message: string, details: string)

  /** The `details` payload of a tool error. */
  datatype Details =
    | NoDetails
    | StackTrace(stack: Option<string>)
    | StackTraceAndDoc(stack: Option<string>, docName: Option<string>)
    | Original(error: Thrown)
    | OriginalAndDoc(error: Thrown, docName: Option<string>)

  /** The uniform `{code, message, details}` error shape of the tool layer. */
  datatype McpError = McpError(code: string, message: string, details: Details)

  /** A value a JavaScript `throw` may carry. Only `ErrorObject` is an
      `instanceof Error`; its stack trace is supplied by the runtime and is
      `None` where the model itself raises the error. */
  datatype Thrown =
    | ErrorObject(message: string, stack: Option<string>)
    | Upstream(failure: DifyError)
    | Tool(toolError: McpError)
    | Other(text: string)
  {
    /** Whether `(error as DifyError).status` is truthy. */
    predicate HasStatus() {
      Upstream? && failure.status != 0
    }
  }

  /** One item of a tool result's `content` array, of type `"text"`. */
  datatype Content = Text(text: string)

  /** JavaScript truthiness of an optional string. */
  predicate Truthy(s: Option<string>)
  {
    s.Some? && s.value != ""
  }
}

=== FILE: wrappers.dfy ===
/** Option and Result values: the model's stand-ins for JavaScript's `undefined`
    and for thrown exceptions. */
module Wrappers {

  /** `None` is an absent (`undefined`) value. */
  datatype Option<+T> = None | Some(value: T) {

    /** The value, or `default` when absent (JavaScript's `?? default`). */
    function GetOr(default: T): T {
      match this
      case Some(v) => v
      case None => default
    }
  }

  /** The outcome of an operation that may throw: `Err` carries the thrown value. */
  datatype Result<+T, +E> = Ok(value: T) | Err(error: E)
}
